=== FILE: README.md ===
# Mayak cassette deck: the animation state tracker

This project models the logic core of the `MayakModel` component of the Mayak 3D cassette recorder, and proves properties of that model. The component lives in `src/App.jsx`. The core is a per-clip tracker with three parts:

- **State.** Which animation clips rest `pressed`, which are `playing` and in which direction, and which have a `pendingReverse` queued. The power flag sits next to them.
- **Transitions.** A click, an imperative command from the host, a mixer "finished" event or a `setTimeout` callback changes the state.
- **Decisions.** Two pure functions sit on top of the tracker: which LED meshes glow, and which clip a clicked scene object drives.

Every transition is a pure function from a `State` to a `Step`, which holds the next state and the list of effects the component performs. The effects are:

- starting a clip forward or in reverse;
- scheduling a deferred callback after a delay in milliseconds;
- notifying the power, tape-unload, cassette-loaded, song-select, play-click or stereo observers;
- refreshing the LEDs, the tape light or the red zone.

A scheduled callback that fires, and the mixer's finish event, are inputs like any click (`Tracker.Input`, `Tracker.Dispatch`). The set of clips for which the loaded asset provides an animation action is the parameter `actions`.

Modules:

- `Clips`: the clip table (`ANIMATION_NAMES`), as a 25-constructor datatype in declaration order with each clip's name string.
- `Text`, `Resolver`, `Lookup`: lower-casing, the `_Action` strip, the `[-\s]` rewrite, `includes`, and the ordered substring lookup `findClipFromObjectName`. `KnownNames` shows which clip the object names the entry points use resolve to.
- `Tracker`: the state, the effects and every transition.
- `Leds`: the LED tables and the `updateLEDStates` decision. It is stated twice and proved equal:
  - as the source writes it: power LEDs first, then the `LED_PLAY` special case, then the scan of `BUTTON_LED_MAP`, then the red override;
  - as a wiring table: each LED follows the power rail, the audio playback, one button, or nothing.
- `TrackerProperties`, `SequenceProperties`, `ClickProperties`, `LedProperties`: properties that relate several transitions.

Where the code behaves in ways a reader might not expect:

- **The generic toggle marks a clip pressed at the start of its forward run**, not when the run finishes.
  - So "pressed and playing forward" is the ordinary state after a toggle.
  - A second toggle during that run changes nothing (`TrackerProperties.SecondToggleIsIgnored`). It does not queue a reverse.
  - The queueing branch of the toggle needs a clip running forward unpressed. The toggle itself never leaves a clip in that state. The load sequence does, twice: its first step starts the cassette button forward without marking it pressed, and its 400 ms stage then starts the tray and the tape forward the same way. A click on a tape-wheel mesh during that run resolves to the tape clip and queues its reverse (`SequenceProperties.TapeClickDuringLoadQueues`).
- **Pressed and playing are not mutually exclusive** in the model, because they are not in the code.
- **The `LED_PLAY` entry of `BUTTON_LED_MAP` is never consulted.** The special case for `LED_PLAY` comes first, so that LED follows the audio playback, not the play button.
- **The red override re-decides three LEDs after the map scan.** `LED_BACKWARD`, `LED_FORWARD` and `LED_RECORD` are first found by the scan, then re-decided from the same clip, so the override changes only their colour.

## Model

| member | source | states |
|---|---|---|
| Clips.TableIsEnumeration | src/App.jsx:10-38 | The clip table lists each of the 25 clips exactly once, no clip name is empty, and no two clips share a name. |
| Clips.Index | src/App.jsx:10-38 | Each clip has a position in the table, and the table holds that clip at that position. |
| Text.Lower | src/App.jsx:505 | Lower-casing keeps the length and leaves no upper-case letter. Each upper-case letter becomes a different character, 32 code points up, and every other character is kept. |
| Text.LowerIdempotent | src/App.jsx:505 | Lower-casing an already lower-cased string changes nothing. |
| Text.Underscored | src/App.jsx:509 | The `[-\s]` rewrite keeps the length and leaves no dash or white-space character. Those become `_`, and every other character is kept, so a string with none of them comes back unchanged. |
| Text.UnderscoredIdempotent | src/App.jsx:509 | Rewriting a second time changes nothing. |
| Text.StripActionSuffix | src/App.jsx:509 | A trailing `_Action`, in any case, is removed, so the result plus the suffix is the input. Any other string is kept. |
| Resolver.BaseOfWord | src/App.jsx:509 | The match key of an identifier followed by `_Action` is the identifier, lower-cased. |
| Resolver.FirstWhere | src/App.jsx:506-513 | The ordered scan yields nothing iff no table entry satisfies the test. Otherwise it yields an entry that satisfies it, with no earlier entry satisfying it. |
| Lookup.FindClip | src/App.jsx:503-514 | An empty name resolves to nothing. A nonempty name resolves to nothing only when no clip matches it. A resolved clip matches, under the four containment tests against the lower-cased name, and no clip earlier in the table matches. |
| Lookup.FirstMatchIsFound | src/App.jsx:503-514 | Converse of `FindClip`: the first matching clip in table order is the one the lookup returns. |
| Lookup.FindClipIsFirstMatch | src/App.jsx:503-514 | The lookup returns a clip exactly when that clip is the first in table order whose name matches the lower-cased object name. |
| Lookup.FirstMatchUnique | src/App.jsx:506-513 | At most one clip is the first match of a name. |
| Lookup.FoundIsOnlyMatch | src/App.jsx:503-514 | A clip the lookup returns is the first match, and no other clip is. |
| Lookup.UnfoundHasNoMatch | src/App.jsx:503-514 | When the lookup returns nothing, no clip is a first match. |
| Lookup.FindIgnoresCase | src/App.jsx:505 | The lookup of a lower-cased name is the lookup of the name: the object name's case does not matter. |
| KnownNames.PowerButtonResolves | src/App.jsx:503-514 | `btn_POWER`, the name `ensurePowerOn` toggles, resolves to `btn_POWER_Action`. |
| KnownNames.PlayButtonResolves | src/App.jsx:503-514 | `btn_PLAY` resolves to `btn_PLAY_Action`. |
| KnownNames.StereoButtonResolves | src/App.jsx:503-514 | `btn_STEREO` resolves to `btn_STEREO_Action`. |
| KnownNames.TapeWheelResolvesToTape | src/App.jsx:503-514 | Loose matching: the mesh `Tape_wheele_L` resolves to the tape clip, because its name contains the base `tape`. |
| Tracker.ViewsDetermineState | src/App.jsx:499-501 | The three per-clip collections and the power flag are all the tracker's state: states that agree on every clip and on power are equal. |
| Tracker.ToggleClip | src/App.jsx:823-868 | Only the toggled clip changes. Without an action: nothing. Idle: forward run, pressed at once, LED refresh. Unpressed forward run: reverse queued. Pressed and idle: reverse run. Reversing, or pressed and running: nothing. No branch emits a power notice. |
| Tracker.Toggle | src/App.jsx:823-868 | Every clip other than the one the lookup resolves the name to keeps its view. The power flag never changes, and no power notice is emitted. |
| TrackerProperties.ToggleWithoutMatch | src/App.jsx:823-827 | When no clip's name matches the object name, the toggle changes nothing and emits nothing. |
| TrackerProperties.ToggleOfFirstMatch | src/App.jsx:823-868 | When a clip is the first match of the object name, the toggle is that clip's toggle and changes no other clip and not the power flag. |
| TrackerProperties.ToggleLeavesUnmatched | src/App.jsx:823-868 | A clip that is not the first match of the object name keeps its view through the toggle. |
| Tracker.Finish | src/App.jsx:600-643 | No clip, or a clip not running: nothing. Forward finish with a queued reverse: the flag is consumed and the reverse run starts. Forward finish otherwise: pressed; power on and notified iff power clip; loaded notice iff cassette button; LED refresh. Reverse finish: unpressed; power off and notified iff power clip; LED and tape-light refresh. A power-clip finish also brings the refresh of the LEDs, the tape light and the red zone that the component runs on every power change (src/App.jsx:665-670); no other finish does. Other clips unchanged. |
| Tracker.Load | src/App.jsx:417-496 | A missing group action, or a group clip reversing: no-op. Nothing pressed or forward: the button starts now and tray and tape are scheduled at 400 ms. Any clip forward: all three are queued for reverse. Otherwise: the unload notice and the button's reverse at 900 ms, the tray's at 0 ms and the tape's at 100 ms. |
| Tracker.OnTimer | src/App.jsx:449-452 | The load stage starts tray and tape forward and touches nothing else. A deferred reverse starts its one group clip in reverse. The unload notice only notifies. |
| Tracker.Unload | src/App.jsx:951-1001 | The tape-unload notice always comes first. With all three actions, the three group clips are cleared from every collection and their reverses are scheduled at 0/100/900 ms, whatever their prior state. No other clip and not the power flag change. |
| Tracker.EnsurePowerOn | src/App.jsx:871-875 | Only the power clip can change, and the flag itself never does. With the power on: nothing. With it off: the component's toggle of the object name `btn_POWER`, which from rest starts the power clip forward, pressed, with an LED refresh. |
| Tracker.EntryPointsResolve | src/App.jsx:881-887 | The entry points' toggles of the object names `btn_PLAY` and `btn_STEREO` are toggles of the play and stereo clips. |
| Tracker.ResetPlay | src/App.jsx:889-919 | Only the play clip changes. Missing action, or reversing: nothing. Forward: reverse queued. Pressed and idle: unpressed at once, reverse run, LED refresh. Unpressed and idle: nothing. |
| Tracker.ResetStereo | src/App.jsx:1003-1036 | Like `ResetPlay` for the stereo clip, except that the pressed and idle case starts the reverse run with no LED refresh and leaves the clip pressed. |
| Tracker.PressPlay | src/App.jsx:921-949 | Only the play clip changes. Missing action, pressed, or forward: nothing. Otherwise any reverse run is dropped, and the clip runs forward, pressed, with an LED refresh. |
| Tracker.VolumeClick | src/App.jsx:1066-1095 | Only the volume clip changes, and its pending flag never does. Idle: forward run and pressed. Pressed and idle: reverse run. Missing action or running: nothing. |
| Tracker.Click | src/App.jsx:1057-1112 | No click changes the power flag or emits a power notice. `cassete` only selects a song. A `Volume_knob` click changes only the volume clip, and a `btn_CASSETTE` click only the load group. A `btn_PLAY` click announces itself first and changes only the clip the name resolves to. A `btn_STEREO` click announces itself first and changes only that clip, the play clip and the stereo clip. Any other click changes only the clip the name resolves to. |
| TrackerProperties.SecondToggleIsIgnored | src/App.jsx:848-867 | A second toggle of a clip the first toggle started leaves the state unchanged and emits nothing: no reverse is queued behind the forward run. |
| TrackerProperties.InitialPowerInv | src/App.jsx:267 | The power is off at mount, and the power invariant holds there. |
| TrackerProperties.ToggleRoundTrip | src/App.jsx:600-643 | Toggle an idle clip, finish, toggle, finish: the clip is pressed after the first finish (the power is then on if it is the power clip), and the whole state is back where it started after the second. |
| TrackerProperties.PlayPressRoundTrip | src/App.jsx:889-949 | `pressPlayButton`, finish, `resetPlayButton`, finish: the play clip is pressed after the first finish, reversing and unpressed after the reset, and the whole state is restored after the second finish. |
| TrackerProperties.PowerNoticeExactlyOnce | src/App.jsx:600-643 | Under the power invariant, every input keeps it. An input emits power notices exactly when it flips the power flag: one notice, carrying the new value. Only the power clip's finish flips the flag. |
| TrackerProperties.PowerInvPreserved | src/App.jsx:600-643 | Every input keeps the power invariant: power is on exactly while the power clip is pressed and not running forward. |
| TrackerProperties.FinishNotices | src/App.jsx:619-638 | A finish event flips the power flag only for the power clip and then emits exactly one notice with the new value. |
| TrackerProperties.PowerFinishNotices | src/App.jsx:619-638 | The power clip's finish, forward or reverse, always flips the power flag and emits exactly one notice, carrying the new value. |
| TrackerProperties.ClickKeepsPowerInv | src/App.jsx:1057-1112 | A click never changes the power flag directly and never emits a power notice. |
| TrackerProperties.StereoChainKeepsPowerInv | src/App.jsx:1103-1108 | The stereo click's toggle-and-release chain keeps the power invariant and the flag, and emits no power notice. |
| TrackerProperties.PowerForwardFinish | src/App.jsx:614-620 | The power clip's press run ending with no reverse queued turns the power on and emits exactly one `onPowerChange(true)`. |
| TrackerProperties.PowerOnStarts | src/App.jsx:871-875 | On any powered-down model that satisfies the power invariant, `ensurePowerOn` leaves the power clip running forward, unqueued, with the power still off. It starts the clip from rest with an LED refresh, or leaves a clip that is already starting alone, and it emits no power notice. |
| TrackerProperties.PowerOnScenario | src/App.jsx:871-875 | On any powered-down model that satisfies the power invariant, `ensurePowerOn` followed by the power clip's finish turns the power on. Exactly one `onPowerChange(true)` is emitted over both steps. |
| TrackerProperties.VolumeClickIsToggleWithoutQueue | src/App.jsx:1066-1095 | The volume click equals the generic toggle of the volume clip in every state except an unpressed forward run. There the toggle would queue a reverse and the volume click does nothing. |
| SequenceProperties.LoadCompletes | src/App.jsx:417-455 | From a group at rest: the button starts, the 400 ms stage starts tray and tape, and the three forward runs finish. The button's finish carries the loaded notice. All three end pressed and idle, and nothing outside the group changes. |
| SequenceProperties.EjectCompletes | src/App.jsx:462-492 | From a loaded group, the second cassette click schedules the stagger. Its callbacks run in delay order, with the unload notice at the button's delay, and the three reverse runs finish. The group ends at rest and nothing outside it changes. |
| SequenceProperties.LoadEjectRoundTrip | src/App.jsx:417-496 | Load then eject returns the whole tracker to the state it started from. |
| SequenceProperties.TapeClickDuringLoadQueues | src/App.jsx:449-452 | While the load stage runs the tray and tape forward unpressed, a click on `Tape_wheele_L` toggles the tape clip. That queues its reverse silently and changes nothing else, and the tape's forward finish then starts the reverse. |
| SequenceProperties.DoubleLoadQueuesEject | src/App.jsx:457-461 | A second cassette click during the button's forward run emits nothing. The tray-and-tape stage is scheduled once over both clicks, and all three clips end forward with a reverse queued. |
| SequenceProperties.QueuedEjectReverses | src/App.jsx:609-617 | A queued group clip's forward finish turns straight into its reverse run, consuming the flag. |
| SequenceProperties.UnloadAlwaysEjects | src/App.jsx:951-1001 | From any state, the forced unload's three deferred reverses run and finish. The group ends at rest, and no other clip and not the power flag change. |
| ClickProperties.StereoObjectRoutes | src/App.jsx:1057-1103 | A click on `btn_STEREO` passes the song-select, volume, cassette and play tests, takes the stereo branch, and resolves to the stereo clip. |
| ClickProperties.StereoClickChain | src/App.jsx:1103-1108 | A stereo click is the stereo notice, then the toggle of the stereo clip, then the release of the play button, then the release of the stereo button. |
| ClickProperties.StereoPress | src/App.jsx:1103-1108 | From a resting stereo clip and an unpressed, idle play clip, the chain starts the stereo clip forward and pressed with one LED refresh, and queues its reverse. Nothing else changes. |
| ClickProperties.StereoRelease | src/App.jsx:600-643 | The queued stereo run's forward finish starts its reverse. The reverse finish leaves the stereo clip at rest, so the press is momentary. |
| Leds.ScanButtonMap | src/App.jsx:544-550 | The scan of `BUTTON_LED_MAP` finds nothing iff no entry names the LED. Otherwise it finds the first entry that names it. |
| Leds.Decide | src/App.jsx:527-562 | The decision as written equals the wiring table: power LEDs follow the power (mint), `LED_PLAY` power and audio (green), `LED_BACKWARD`, `LED_FORWARD` and `LED_RECORD` power and their button (red), `LED_EDIT` power and the second program button (green). Every other mesh stays dark. No LED is lit without power. |
| Leds.Paint | src/App.jsx:563-577 | A lit material gets intensity 1.1, tripled for the boost materials. It takes the decision's colour when it has an emissive colour, and is not tone-mapped. A dark one gets intensity 0, is tone-mapped, and keeps its colour. |
| Leds.Refresh | src/App.jsx:527-579 | Every LED mesh keeps its name and slots, empty slots stay empty, and each material glows exactly when its mesh's wire is live. |
| Leds.PowerOffDarkens | src/App.jsx:527-579 | With the power off, every LED material is dark and tone-mapped. |
| Leds.RefreshIdempotent | src/App.jsx:527-579 | Refreshing the LEDs twice with the same inputs is refreshing them once. |
| LedProperties.PressLightsAtOnce | src/App.jsx:848-852 | With the power on, toggling a resting wired button marks it pressed before its run ends. The LED refresh the toggle asks for then lights its LED. |
| LedProperties.ReleaseDarkens | src/App.jsx:632-641 | The finish of a wired button's reverse run refreshes the LEDs and leaves its LED dark. |
| LedProperties.PowerOffDarkensAll | src/App.jsx:632-641 | The finish of the power clip's reverse run turns the power off, refreshes the LEDs, and leaves every LED dark. |

## Left out

- The engine's side of every effect is out of scope: three.js and react-three-fiber calls (`reset`, `play`, `time`, `timeScale`, `setLoop`, `clampWhenFinished`), clip durations, and the `1e-6` rewind. The model records only which clip starts in which direction.
- The fallback action lookup in `toggleActionForObject` (src/App.jsx:829-836) is not modelled. It searches the actions by substring of the clip name. `actions` says directly whether the clip has an action.
- Timers are uncancellable. The environment may fire them in any order, so ordering claims are made only for the sequences a lemma spells out. Real time is not modelled.
- The component's power state and its ref (`isPowerOnRef`, updated by an effect after each render) are one flag that changes at the finish event. The one-render lag of the ref is not modelled.
- Observer callbacks that the host does not provide (`if (onX)`) are still emitted as effects, and the host ignores them. Console logging is dropped.
- `updateTapeLightIntensity` and `updateRedZoneIntensity` are only the `RefreshTapeLight` and `RefreshRedZone` effects. The tape-light, glass and red-zone material tweaks (src/App.jsx:311-415) are foreign library calls.
- The LED mesh list (`LED_MESH_NAMES`, src/App.jsx:87-89, filtered from src/mesh-names.js) is an input to `Leds.Refresh`. src/mesh-names.js is not part of this model.
- `mat.needsUpdate` is a rendering hint and is not modelled.
- `AudioAnalyzer` (Web Audio and floating-point dB mapping), the VFD mask animator, the tape-wheel rotation, the volume-knob pose sync and the intro camera are out of scope. They are per-frame floating-point interpolation over the clock.
- The `App` component (UI state, file input, audio playback), server.js and electron-main.js are I/O glue and are out of scope.
- A finish event whose clip is not in the table is not modelled. It is the same no-op as one without a clip name, because only table clips are ever put in `playing`.
- Text.Lower: lower-cases ASCII letters only, where `toLowerCase` also folds non-ASCII letters. Every clip name and every object name the model reasons about is ASCII.
- Tracker.Finish: the power-change effect (src/App.jsx:665-670) runs after the render that follows `setIsPowerOn`. The model appends its refreshes to the power clip's finish, in the same step. The handler's own LED refresh (src/App.jsx:630, 640) reads the power ref before that render, so it still sees the old value. Only the refresh that follows it in the same finish sees the new one.
- LedProperties.PowerOffDarkensAll: the dark LEDs are those of the refresh that runs against the new power value, the power-change refresh, not of the handler's own refresh, which still sees the old value.
- Leds.Paint: the intensity is in tenths (1.1 is 11 and the boosted 3.3 is 33), because the model has no floating point. The emissive colour of an unlit material is left as it was, as in the source.

=== FILE: click_props.dfy ===
/**
 What a click on the stereo button does: the click handler toggles the
 stereo clip and then releases it, so the press is momentary.
 */
module ClickProperties {

  import opened Wrappers
  import opened Clips
  import opened Text
  import opened Lookup
  import opened Tracker
  import KnownNames

  /** `name` takes the stereo branch of the click handler and names the stereo clip. */
  predicate StereoRoute(name: string) {
    && name != "cassete"
    && !Contains(name, "Volume_knob") && !Contains(name, "btn_CASSETTE") && !Contains(name, "btn_PLAY")
    && Contains(name, "btn_STEREO")
    && FindClip(name) == Some(Stereo)
  }

  /** The object `btn_STEREO` takes the stereo branch and resolves to the stereo clip. */
  lemma StereoObjectRoutes(name: string)
    requires name == "btn_STEREO"
    ensures StereoRoute(name)
  {
    TooLong(name, "Volume_knob");
    TooLong(name, "btn_CASSETTE");
    MissingChar(name, "btn_PLAY", 'P');
    ContainsAt(name, "btn_STEREO", 0);
    KnownNames.StereoButtonResolvesFor(name);
  }

  /** The stereo branch of the click handler, once the object has resolved to the stereo clip:
      a resting stereo clip (play button at rest) starts its forward run and queues its reverse
      at once. */
  lemma StereoPress(s: State, actions: set<Clip>)
    requires Stereo in actions && View(s, Stereo) == IdleView
    requires Play !in s.pressed && Play !in s.playing
    ensures var t := ToggleClip(s, actions, Stereo);
            var p := ResetPlay(t.state, actions);
            var q := ResetStereo(p.state, actions);
            && t.effects + p.effects + q.effects == [StartForward(Stereo), RefreshLeds]
            && View(q.state, Stereo) == ClipView(true, Some(Forward), true)
            && OnlyTouches(s, q.state, Stereo)
  {
    var t := ToggleClip(s, actions, Stereo);
    assert View(t.state, Play) == View(s, Play);
    var p := ResetPlay(t.state, actions);
    assert p == Step(t.state, []);
  }

  /** From there, the forward finish starts the queued reverse and the reverse finish leaves the
      stereo clip at rest. */
  lemma StereoRelease(s: State)
    requires View(s, Stereo) == ClipView(true, Some(Forward), true)
    ensures var f1 := Finish(s, Some(Stereo));
            var f2 := Finish(f1.state, Some(Stereo));
            && f1.effects == [StartReverse(Stereo)]
            && View(f2.state, Stereo) == IdleView
            && OnlyTouches(s, f2.state, Stereo)
  {
  }

  /** A click on an object that takes the stereo branch (`StereoObjectRoutes`: the object
      `btn_STEREO` does) toggles the stereo clip, then releases the play button and then the
      stereo button, announcing the click to the stereo observer first. With the stereo and
      play clips at rest that is a momentary press: `StereoPress` and `StereoRelease`. */
  lemma StereoClickChain(s: State, actions: set<Clip>, name: string)
    requires StereoRoute(name)
    ensures var t := ToggleClip(s, actions, Stereo);
            var p := ResetPlay(t.state, actions);
            var q := ResetStereo(p.state, actions);
            Click(s, actions, name) == Step(q.state, [NotifyStereoToggle] + t.effects + p.effects + q.effects)
  {
  }
}

=== FILE: clips.dfy ===
/**
 The clip table of the cassette-recorder model: every animation clip the
 state tracker knows about, in the declaration order of the component's
 `ANIMATION_NAMES` table, with the clip name each one carries in the asset.
 */
module Clips {

  /** One constructor per entry of the table, named after its key. */
  datatype Clip =
    | Button | Tray | Tape | Power | Play | Volume
    | VhdMaskL | VhdMaskR | ForwardBtn | BackwardBtn
    | Prog1 | Prog2 | Record | Stereo
    | ScreenNumbers | ScreenPamyat | ScreenPovtor | ScreenPysk
    | SliderBalance | SliderGromkost | SliderLenta | SliderPodmag | SliderPsh
    | SwitchAvtopoisk | SwitchTaimer

  /** The table in declaration order; the name resolver scans it in this order. */
  const Table: seq<Clip> := [
    Button, Tray, Tape, Power, Play, Volume,
    VhdMaskL, VhdMaskR, ForwardBtn, BackwardBtn,
    Prog1, Prog2, Record, Stereo,
    ScreenNumbers, ScreenPamyat, ScreenPovtor, ScreenPysk,
    SliderBalance, SliderGromkost, SliderLenta, SliderPodmag, SliderPsh,
    SwitchAvtopoisk, SwitchTaimer
  ]

  /** The clip name stored in the animation asset. */
  function Name(c: Clip): string {
    match c
    case Button => "btn_CASSETTE_Action"
    case Tray => "CASSETTE_Control_Action"
    case Tape => "Tape_Action"
    case Power => "btn_POWER_Action"
    case Play => "btn_PLAY_Action"
    case Volume => "Volume_CONTROL_Action"
    case VhdMaskL => "VHD_MASK_L_Action"
    case VhdMaskR => "VHD_MASK_R_Action"
    case ForwardBtn => "btn_FORWARD_Action"
    case BackwardBtn => "btn_BACKWARD_ACTION"
    case Prog1 => "btn_PROG1_Action"
    case Prog2 => "btn_PROG2_Action"
    case Record => "btn_RECORD_Action"
    case Stereo => "btn_STEREO_Action"
    case ScreenNumbers => "btn_screen_NUMBERS_Action"
    case ScreenPamyat => "btn_screen_PAMYAT_Action"
    case ScreenPovtor => "btn_screen_POVTOR_Action"
    case ScreenPysk => "btn_screen_PYSK_Action"
    case SliderBalance => "slider_BALANCE_Action"
    case SliderGromkost => "slider_GROMKOST_Action"
    case SliderLenta => "slider_LENTA_Action"
    case SliderPodmag => "slider_PODMAG_Action"
    case SliderPsh => "slider_PSH_Action"
    case SwitchAvtopoisk => "swtch_AVTOPOISK_Action"
    case SwitchTaimer => "swtch_TAIMER_Action"
  }

  /** The position of a clip in the table. */
  function Index(c: Clip): (i: nat)
    ensures i < |Table| && Table[i] == c
  {
    match c
    case Button => 0
    case Tray => 1
    case Tape => 2
    case Power => 3
    case Play => 4
    case Volume => 5
    case VhdMaskL => 6
    case VhdMaskR => 7
    case ForwardBtn => 8
    case BackwardBtn => 9
    case Prog1 => 10
    case Prog2 => 11
    case Record => 12
    case Stereo => 13
    case ScreenNumbers => 14
    case ScreenPamyat => 15
    case ScreenPovtor => 16
    case ScreenPysk => 17
    case SliderBalance => 18
    case SliderGromkost => 19
    case SliderLenta => 20
    case SliderPodmag => 21
    case SliderPsh => 22
    case SwitchAvtopoisk => 23
    case SwitchTaimer => 24
  }

  /** The three clips of the cassette load/eject sequence. */
  predicate InLoadGroup(c: Clip) {
    c == Button || c == Tray || c == Tape
  }

  type GroupClip = c: Clip | InLoadGroup(c) witness Button

  /** The table lists every clip exactly once, no table name is empty, and no two clips share
      a name, so keying the tracker's collections by clip is keying them by name. */
  lemma TableIsEnumeration()
    ensures forall c: Clip :: c in Table
    ensures forall i, j :: 0 <= i < j < |Table| ==> Table[i] != Table[j]
    ensures forall c: Clip :: |Name(c)| > 0
    ensures forall c: Clip, d: Clip :: Name(c) == Name(d) ==> c == d
  {
    forall c: Clip
      ensures c in Table
    {
      assert Table[Index(c)] == c;
    }
    TableHasNoRepeats();
    NamesAreDistinct();
  }

  /** No two clips carry the same name. */
  lemma NamesAreDistinct()
    ensures forall c: Clip, d: Clip :: Name(c) == Name(d) ==> c == d
  {
  }

  lemma TableHasNoRepeats()
    ensures forall i, j :: 0 <= i < j < |Table| ==> Table[i] != Table[j]
  {
    forall i, j | 0 <= i < j < |Table|
      ensures Table[i] != Table[j]
    {
      IndexOfTableEntry(i);
      IndexOfTableEntry(j);
    }
  }

  /** Every clip is in the table. */
  lemma InTable(c: Clip)
    ensures c in Table
  {
    assert Table[Index(c)] == c;
  }

  /** `Index` inverts table lookup. */
  lemma IndexOfTableEntry(i: int)
    requires 0 <= i < |Table|
    ensures Index(Table[i]) == i
  {
  }
}

=== FILE: known_names.dfy ===
/**
 The clip names the dedicated entry points resolve, and one resolution that
 shows how loose the substring matching is.
 */
module KnownNames {

  import opened Wrappers
  import opened Clips
  import opened Text
  import opened Resolver
  import opened Lookup

  lemma BaseButton()
    ensures Base(Name(Button)) == "btn_cassette" && Lower(Name(Button)) == "btn_cassette_action"
  {
    BaseButtonOf("btn_CASSETTE_Action");
  }

  lemma BaseButtonOf(m: string)
    requires m == "btn_CASSETTE_Action"
    ensures Base(m) == "btn_cassette" && Lower(m) == "btn_cassette_action"
  {
    BaseButtonLiteral();
    LowerButtonLiteral();
  }

  lemma BaseButtonLiteral()
    ensures Base("btn_CASSETTE_Action") == "btn_cassette"
  {
    assert "btn_CASSETTE_Action" == "btn_CASSETTE" + "_Action";
    assert Lower("_Action") == ActionSuffix;
    assert Lower("btn_CASSETTE") == "btn_cassette";
    BaseOfWord("btn_CASSETTE", "_Action");
  }

  lemma LowerButtonLiteral()
    ensures Lower("btn_CASSETTE_Action") == "btn_cassette_action"
  {
  }

  lemma BaseTray()
    ensures Base(Name(Tray)) == "cassette_control" && Lower(Name(Tray)) == "cassette_control_action"
  {
    BaseTrayOf("CASSETTE_Control_Action");
  }

  lemma BaseTrayOf(m: string)
    requires m == "CASSETTE_Control_Action"
    ensures Base(m) == "cassette_control" && Lower(m) == "cassette_control_action"
  {
    BaseTrayLiteral();
    LowerTrayLiteral();
  }

  lemma BaseTrayLiteral()
    ensures Base("CASSETTE_Control_Action") == "cassette_control"
  {
    assert "CASSETTE_Control_Action" == "CASSETTE_Control" + "_Action";
    assert Lower("_Action") == ActionSuffix;
    assert Lower("CASSETTE_Control") == "cassette_control";
    BaseOfWord("CASSETTE_Control", "_Action");
  }

  lemma LowerTrayLiteral()
    ensures Lower("CASSETTE_Control_Action") == "cassette_control_action"
  {
  }

  lemma BaseTape()
    ensures Base(Name(Tape)) == "tape" && Lower(Name(Tape)) == "tape_action"
  {
    BaseTapeOf("Tape_Action");
  }

  lemma BaseTapeOf(m: string)
    requires m == "Tape_Action"
    ensures Base(m) == "tape" && Lower(m) == "tape_action"
  {
    BaseTapeLiteral();
    LowerTapeLiteral();
  }

  lemma BaseTapeLiteral()
    ensures Base("Tape_Action") == "tape"
  {
    assert "Tape_Action" == "Tape" + "_Action";
    assert Lower("_Action") == ActionSuffix;
    assert Lower("Tape") == "tape";
    BaseOfWord("Tape", "_Action");
  }

  lemma LowerTapeLiteral()
    ensures Lower("Tape_Action") == "tape_action"
  {
  }

  lemma BasePower()
    ensures Base(Name(Power)) == "btn_power" && Lower(Name(Power)) == "btn_power_action"
  {
    BasePowerOf("btn_POWER_Action");
  }

  lemma BasePowerOf(m: string)
    requires m == "btn_POWER_Action"
    ensures Base(m) == "btn_power" && Lower(m) == "btn_power_action"
  {
    BasePowerLiteral();
    LowerPowerLiteral();
  }

  lemma BasePowerLiteral()
    ensures Base("btn_POWER_Action") == "btn_power"
  {
    assert "btn_POWER_Action" == "btn_POWER" + "_Action";
    assert Lower("_Action") == ActionSuffix;
    assert Lower("btn_POWER") == "btn_power";
    BaseOfWord("btn_POWER", "_Action");
  }

  lemma LowerPowerLiteral()
    ensures Lower("btn_POWER_Action") == "btn_power_action"
  {
  }

  lemma BasePlay()
    ensures Base(Name(Play)) == "btn_play" && Lower(Name(Play)) == "btn_play_action"
  {
    BasePlayOf("btn_PLAY_Action");
  }

  lemma BasePlayOf(m: string)
    requires m == "btn_PLAY_Action"
    ensures Base(m) == "btn_play" && Lower(m) == "btn_play_action"
  {
    BasePlayLiteral();
    LowerPlayLiteral();
  }

  lemma BasePlayLiteral()
    ensures Base("btn_PLAY_Action") == "btn_play"
  {
    assert "btn_PLAY_Action" == "btn_PLAY" + "_Action";
    assert Lower("_Action") == ActionSuffix;
    assert Lower("btn_PLAY") == "btn_play";
    BaseOfWord("btn_PLAY", "_Action");
  }

  lemma LowerPlayLiteral()
    ensures Lower("btn_PLAY_Action") == "btn_play_action"
  {
  }

  lemma BaseVolume()
    ensures Base(Name(Volume)) == "volume_control" && Lower(Name(Volume)) == "volume_control_action"
  {
    BaseVolumeOf("Volume_CONTROL_Action");
  }

  lemma BaseVolumeOf(m: string)
    requires m == "Volume_CONTROL_Action"
    ensures Base(m) == "volume_control" && Lower(m) == "volume_control_action"
  {
    BaseVolumeLiteral();
    LowerVolumeLiteral();
  }

  lemma BaseVolumeLiteral()
    ensures Base("Volume_CONTROL_Action") == "volume_control"
  {
    assert "Volume_CONTROL_Action" == "Volume_CONTROL" + "_Action";
    assert Lower("_Action") == ActionSuffix;
    assert Lower("Volume_CONTROL") == "volume_control";
    BaseOfWord("Volume_CONTROL", "_Action");
  }

  lemma LowerVolumeLiteral()
    ensures Lower("Volume_CONTROL_Action") == "volume_control_action"
  {
  }

  lemma BaseVhdMaskL()
    ensures Base(Name(VhdMaskL)) == "vhd_mask_l" && Lower(Name(VhdMaskL)) == "vhd_mask_l_action"
  {
    BaseVhdMaskLOf("VHD_MASK_L_Action");
  }

  lemma BaseVhdMaskLOf(m: string)
    requires m == "VHD_MASK_L_Action"
    ensures Base(m) == "vhd_mask_l" && Lower(m) == "vhd_mask_l_action"
  {
    BaseVhdMaskLLiteral();
    LowerVhdMaskLLiteral();
  }

  lemma BaseVhdMaskLLiteral()
    ensures Base("VHD_MASK_L_Action") == "vhd_mask_l"
  {
    assert "VHD_MASK_L_Action" == "VHD_MASK_L" + "_Action";
    assert Lower("_Action") == ActionSuffix;
    assert Lower("VHD_MASK_L") == "vhd_mask_l";
    BaseOfWord("VHD_MASK_L", "_Action");
  }

  lemma LowerVhdMaskLLiteral()
    ensures Lower("VHD_MASK_L_Action") == "vhd_mask_l_action"
  {
  }

  lemma BaseVhdMaskR()
    ensures Base(Name(VhdMaskR)) == "vhd_mask_r" && Lower(Name(VhdMaskR)) == "vhd_mask_r_action"
  {
    BaseVhdMaskROf("VHD_MASK_R_Action");
  }

  lemma BaseVhdMaskROf(m: string)
    requires m == "VHD_MASK_R_Action"
    ensures Base(m) == "vhd_mask_r" && Lower(m) == "vhd_mask_r_action"
  {
    BaseVhdMaskRLiteral();
    LowerVhdMaskRLiteral();
  }

  lemma BaseVhdMaskRLiteral()
    ensures Base("VHD_MASK_R_Action") == "vhd_mask_r"
  {
    assert "VHD_MASK_R_Action" == "VHD_MASK_R" + "_Action";
    assert Lower("_Action") == ActionSuffix;
    assert Lower("VHD_MASK_R") == "vhd_mask_r";
    BaseOfWord("VHD_MASK_R", "_Action");
  }

  lemma LowerVhdMaskRLiteral()
    ensures Lower("VHD_MASK_R_Action") == "vhd_mask_r_action"
  {
  }

  lemma BaseForwardBtn()
    ensures Base(Name(ForwardBtn)) == "btn_forward" && Lower(Name(ForwardBtn)) == "btn_forward_action"
  {
    BaseForwardBtnOf("btn_FORWARD_Action");
  }

  lemma BaseForwardBtnOf(m: string)
    requires m == "btn_FORWARD_Action"
    ensures Base(m) == "btn_forward" && Lower(m) == "btn_forward_action"
  {
    BaseForwardBtnLiteral();
    LowerForwardBtnLiteral();
  }

  lemma BaseForwardBtnLiteral()
    ensures Base("btn_FORWARD_Action") == "btn_forward"
  {
    assert "btn_FORWARD_Action" == "btn_FORWARD" + "_Action";
    assert Lower("_Action") == ActionSuffix;
    assert Lower("btn_FORWARD") == "btn_forward";
    BaseOfWord("btn_FORWARD", "_Action");
  }

  lemma LowerForwardBtnLiteral()
    ensures Lower("btn_FORWARD_Action") == "btn_forward_action"
  {
  }

  lemma BaseBackwardBtn()
    ensures Base(Name(BackwardBtn)) == "btn_backward" && Lower(Name(BackwardBtn)) == "btn_backward_action"
  {
    BaseBackwardBtnOf("btn_BACKWARD_ACTION");
  }

  lemma BaseBackwardBtnOf(m: string)
    requires m == "btn_BACKWARD_ACTION"
    ensures Base(m) == "btn_backward" && Lower(m) == "btn_backward_action"
  {
    BaseBackwardBtnLiteral();
    LowerBackwardBtnLiteral();
  }

  lemma BaseBackwardBtnLiteral()
    ensures Base("btn_BACKWARD_ACTION") == "btn_backward"
  {
    assert "btn_BACKWARD_ACTION" == "btn_BACKWARD" + "_ACTION";
    assert Lower("_ACTION") == ActionSuffix;
    assert Lower("btn_BACKWARD") == "btn_backward";
    BaseOfWord("btn_BACKWARD", "_ACTION");
  }

  lemma LowerBackwardBtnLiteral()
    ensures Lower("btn_BACKWARD_ACTION") == "btn_backward_action"
  {
  }

  lemma BaseProg1()
    ensures Base(Name(Prog1)) == "btn_prog1" && Lower(Name(Prog1)) == "btn_prog1_action"
  {
    BaseProg1Of("btn_PROG1_Action");
  }

  lemma BaseProg1Of(m: string)
    requires m == "btn_PROG1_Action"
    ensures Base(m) == "btn_prog1" && Lower(m) == "btn_prog1_action"
  {
    BaseProg1Literal();
    LowerProg1Literal();
  }

  lemma BaseProg1Literal()
    ensures Base("btn_PROG1_Action") == "btn_prog1"
  {
    assert "btn_PROG1_Action" == "btn_PROG1" + "_Action";
    assert Lower("_Action") == ActionSuffix;
    assert Lower("btn_PROG1") == "btn_prog1";
    BaseOfWord("btn_PROG1", "_Action");
  }

  lemma LowerProg1Literal()
    ensures Lower("btn_PROG1_Action") == "btn_prog1_action"
  {
  }

  lemma BaseProg2()
    ensures Base(Name(Prog2)) == "btn_prog2" && Lower(Name(Prog2)) == "btn_prog2_action"
  {
    BaseProg2Of("btn_PROG2_Action");
  }

  lemma BaseProg2Of(m: string)
    requires m == "btn_PROG2_Action"
    ensures Base(m) == "btn_prog2" && Lower(m) == "btn_prog2_action"
  {
    BaseProg2Literal();
    LowerProg2Literal();
  }

  lemma BaseProg2Literal()
    ensures Base("btn_PROG2_Action") == "btn_prog2"
  {
    assert "btn_PROG2_Action" == "btn_PROG2" + "_Action";
    assert Lower("_Action") == ActionSuffix;
    assert Lower("btn_PROG2") == "btn_prog2";
    BaseOfWord("btn_PROG2", "_Action");
  }

  lemma LowerProg2Literal()
    ensures Lower("btn_PROG2_Action") == "btn_prog2_action"
  {
  }

  lemma BaseRecord()
    ensures Base(Name(Record)) == "btn_record" && Lower(Name(Record)) == "btn_record_action"
  {
    BaseRecordOf("btn_RECORD_Action");
  }

  lemma BaseRecordOf(m: string)
    requires m == "btn_RECORD_Action"
    ensures Base(m) == "btn_record" && Lower(m) == "btn_record_action"
  {
    BaseRecordLiteral();
    LowerRecordLiteral();
  }

  lemma BaseRecordLiteral()
    ensures Base("btn_RECORD_Action") == "btn_record"
  {
    assert "btn_RECORD_Action" == "btn_RECORD" + "_Action";
    assert Lower("_Action") == ActionSuffix;
    assert Lower("btn_RECORD") == "btn_record";
    BaseOfWord("btn_RECORD", "_Action");
  }

  lemma LowerRecordLiteral()
    ensures Lower("btn_RECORD_Action") == "btn_record_action"
  {
  }

  lemma BaseStereo()
    ensures Base(Name(Stereo)) == "btn_stereo" && Lower(Name(Stereo)) == "btn_stereo_action"
  {
    BaseStereoOf("btn_STEREO_Action");
  }

  lemma BaseStereoOf(m: string)
    requires m == "btn_STEREO_Action"
    ensures Base(m) == "btn_stereo" && Lower(m) == "btn_stereo_action"
  {
    BaseStereoLiteral();
    LowerStereoLiteral();
  }

  lemma BaseStereoLiteral()
    ensures Base("btn_STEREO_Action") == "btn_stereo"
  {
    assert "btn_STEREO_Action" == "btn_STEREO" + "_Action";
    assert Lower("_Action") == ActionSuffix;
    assert Lower("btn_STEREO") == "btn_stereo";
    BaseOfWord("btn_STEREO", "_Action");
  }

  lemma LowerStereoLiteral()
    ensures Lower("btn_STEREO_Action") == "btn_stereo_action"
  {
  }

  lemma PowerButtonSkipsButton(n: string)
    requires n == "btn_power"
    ensures !Matches(n, Name(Button))
  {
    BaseButton();
    TooLong(n, Base(Name(Button)));
    MissingChar(Base(Name(Button)), n, 'p');
    MissingChar(Lower(Name(Button)), n, 'p');
    TooLong(n, Lower(Name(Button)));
  }

  lemma PowerButtonSkipsTray(n: string)
    requires n == "btn_power"
    ensures !Matches(n, Name(Tray))
  {
    BaseTray();
    TooLong(n, Base(Name(Tray)));
    MissingChar(Base(Name(Tray)), n, 'b');
    MissingChar(Lower(Name(Tray)), n, 'b');
    TooLong(n, Lower(Name(Tray)));
  }

  lemma PowerButtonSkipsTape(n: string)
    requires n == "btn_power"
    ensures !Matches(n, Name(Tape))
  {
    BaseTape();
    MissingChar(n, Base(Name(Tape)), 'a');
    TooLong(Base(Name(Tape)), n);
    MissingChar(Lower(Name(Tape)), n, 'b');
    TooLong(n, Lower(Name(Tape)));
  }

  lemma PowerButtonHitsPower(n: string)
    requires n == "btn_power"
    ensures Matches(n, Name(Power))
  {
    BasePower();
    ContainsAt(n, Base(Name(Power)), 0);
  }

  lemma PowerButtonSkipsEarlier(n: string, j: int)
    requires n == "btn_power"
    requires 0 <= j < 3
    ensures !Matches(n, Name(Table[j]))
  {
    if j == 0 {
      assert Table[j] == Button;
      PowerButtonSkipsButton(n);
    } else if j == 1 {
      assert Table[j] == Tray;
      PowerButtonSkipsTray(n);
    } else if j == 2 {
      assert Table[j] == Tape;
      PowerButtonSkipsTape(n);
    }
  }

  lemma PowerButtonResolvesFor(obj: string)
    requires obj == "btn_POWER"
    ensures FindClip(obj) == Some(Power)
  {
    var n := Lower(obj);
    assert n == "btn_power";
    PowerButtonHitsPower(n);
    assert Index(Power) == 3;
    forall j | 0 <= j < Index(Power)
      ensures !Matches(n, Name(Table[j]))
    {
      PowerButtonSkipsEarlier(n, j);
    }
    FirstMatchIsFound(obj, Power);
  }

  /** `ensurePowerOn` toggles the object name `btn_POWER`, which resolves to the power clip. */
  lemma PowerButtonResolves()
    ensures FindClip("btn_POWER") == Some(Power)
  {
    PowerButtonResolvesFor("btn_POWER");
  }

  lemma PlayButtonSkipsButton(n: string)
    requires n == "btn_play"
    ensures !Matches(n, Name(Button))
  {
    BaseButton();
    TooLong(n, Base(Name(Button)));
    MissingChar(Base(Name(Button)), n, 'p');
    MissingChar(Lower(Name(Button)), n, 'p');
    TooLong(n, Lower(Name(Button)));
  }

  lemma PlayButtonSkipsTray(n: string)
    requires n == "btn_play"
    ensures !Matches(n, Name(Tray))
  {
    BaseTray();
    TooLong(n, Base(Name(Tray)));
    MissingChar(Base(Name(Tray)), n, 'b');
    MissingChar(Lower(Name(Tray)), n, 'b');
    TooLong(n, Lower(Name(Tray)));
  }

  lemma PlayButtonSkipsTape(n: string)
    requires n == "btn_play"
    ensures !Matches(n, Name(Tape))
  {
    BaseTape();
    MissingChar(n, Base(Name(Tape)), 'e');
    TooLong(Base(Name(Tape)), n);
    MissingChar(Lower(Name(Tape)), n, 'b');
    TooLong(n, Lower(Name(Tape)));
  }

  lemma PlayButtonSkipsPower(n: string)
    requires n == "btn_play"
    ensures !Matches(n, Name(Power))
  {
    BasePower();
    TooLong(n, Base(Name(Power)));
    MissingChar(Base(Name(Power)), n, 'l');
    MissingChar(Lower(Name(Power)), n, 'l');
    TooLong(n, Lower(Name(Power)));
  }

  lemma PlayButtonHitsPlay(n: string)
    requires n == "btn_play"
    ensures Matches(n, Name(Play))
  {
    BasePlay();
    ContainsAt(n, Base(Name(Play)), 0);
  }

  lemma PlayButtonSkipsEarlier(n: string, j: int)
    requires n == "btn_play"
    requires 0 <= j < 4
    ensures !Matches(n, Name(Table[j]))
  {
    if j == 0 {
      assert Table[j] == Button;
      PlayButtonSkipsButton(n);
    } else if j == 1 {
      assert Table[j] == Tray;
      PlayButtonSkipsTray(n);
    } else if j == 2 {
      assert Table[j] == Tape;
      PlayButtonSkipsTape(n);
    } else if j == 3 {
      assert Table[j] == Power;
      PlayButtonSkipsPower(n);
    }
  }

  lemma PlayButtonResolvesFor(obj: string)
    requires obj == "btn_PLAY"
    ensures FindClip(obj) == Some(Play)
  {
    var n := Lower(obj);
    assert n == "btn_play";
    PlayButtonHitsPlay(n);
    assert Index(Play) == 4;
    forall j | 0 <= j < Index(Play)
      ensures !Matches(n, Name(Table[j]))
    {
      PlayButtonSkipsEarlier(n, j);
    }
    FirstMatchIsFound(obj, Play);
  }

  /** The play-button toggle resolves `btn_PLAY` to the play clip. */
  lemma PlayButtonResolves()
    ensures FindClip("btn_PLAY") == Some(Play)
  {
    PlayButtonResolvesFor("btn_PLAY");
  }

  lemma StereoButtonSkipsButton(n: string)
    requires n == "btn_stereo"
    ensures !Matches(n, Name(Button))
  {
    BaseButton();
    TooLong(n, Base(Name(Button)));
    MissingChar(Base(Name(Button)), n, 'r');
    MissingChar(Lower(Name(Button)), n, 'r');
    TooLong(n, Lower(Name(Button)));
  }

  lemma StereoButtonSkipsTray(n: string)
    requires n == "btn_stereo"
    ensures !Matches(n, Name(Tray))
  {
    BaseTray();
    TooLong(n, Base(Name(Tray)));
    MissingChar(Base(Name(Tray)), n, 'b');
    MissingChar(Lower(Name(Tray)), n, 'b');
    TooLong(n, Lower(Name(Tray)));
  }

  lemma StereoButtonSkipsTape(n: string)
    requires n == "btn_stereo"
    ensures !Matches(n, Name(Tape))
  {
    BaseTape();
    MissingChar(n, Base(Name(Tape)), 'a');
    TooLong(Base(Name(Tape)), n);
    MissingChar(Lower(Name(Tape)), n, 'b');
    TooLong(n, Lower(Name(Tape)));
  }

  lemma StereoButtonSkipsPower(n: string)
    requires n == "btn_stereo"
    ensures !Matches(n, Name(Power))
  {
    BasePower();
    MissingChar(n, Base(Name(Power)), 'p');
    TooLong(Base(Name(Power)), n);
    MissingChar(Lower(Name(Power)), n, 's');
    TooLong(n, Lower(Name(Power)));
  }

  lemma StereoButtonSkipsPlay(n: string)
    requires n == "btn_stereo"
    ensures !Matches(n, Name(Play))
  {
    BasePlay();
    MissingChar(n, Base(Name(Play)), 'p');
    TooLong(Base(Name(Play)), n);
    MissingChar(Lower(Name(Play)), n, 's');
    TooLong(n, Lower(Name(Play)));
  }

  lemma StereoButtonSkipsVolume(n: string)
    requires n == "btn_stereo"
    ensures !Matches(n, Name(Volume))
  {
    BaseVolume();
    TooLong(n, Base(Name(Volume)));
    MissingChar(Base(Name(Volume)), n, 'b');
    MissingChar(Lower(Name(Volume)), n, 'b');
    TooLong(n, Lower(Name(Volume)));
  }

  lemma StereoButtonSkipsVhdMaskL(n: string)
    requires n == "btn_stereo"
    ensures !Matches(n, Name(VhdMaskL))
  {
    BaseVhdMaskL();
    MissingChar(n, Base(Name(VhdMaskL)), 'v');
    MissingChar(Base(Name(VhdMaskL)), n, 'b');
    MissingChar(Lower(Name(VhdMaskL)), n, 'b');
    TooLong(n, Lower(Name(VhdMaskL)));
  }

  lemma StereoButtonSkipsVhdMaskR(n: string)
    requires n == "btn_stereo"
    ensures !Matches(n, Name(VhdMaskR))
  {
    BaseVhdMaskR();
    MissingChar(n, Base(Name(VhdMaskR)), 'v');
    MissingChar(Base(Name(VhdMaskR)), n, 'b');
    MissingChar(Lower(Name(VhdMaskR)), n, 'b');
    TooLong(n, Lower(Name(VhdMaskR)));
  }

  lemma StereoButtonSkipsForwardBtn(n: string)
    requires n == "btn_stereo"
    ensures !Matches(n, Name(ForwardBtn))
  {
    BaseForwardBtn();
    TooLong(n, Base(Name(ForwardBtn)));
    MissingChar(Base(Name(ForwardBtn)), n, 's');
    MissingChar(Lower(Name(ForwardBtn)), n, 's');
    TooLong(n, Lower(Name(ForwardBtn)));
  }

  lemma StereoButtonSkipsBackwardBtn(n: string)
    requires n == "btn_stereo"
    ensures !Matches(n, Name(BackwardBtn))
  {
    BaseBackwardBtn();
    TooLong(n, Base(Name(BackwardBtn)));
    MissingChar(Base(Name(BackwardBtn)), n, 's');
    MissingChar(Lower(Name(BackwardBtn)), n, 's');
    TooLong(n, Lower(Name(BackwardBtn)));
  }

  lemma StereoButtonSkipsProg1(n: string)
    requires n == "btn_stereo"
    ensures !Matches(n, Name(Prog1))
  {
    BaseProg1();
    MissingChar(n, Base(Name(Prog1)), 'p');
    TooLong(Base(Name(Prog1)), n);
    MissingChar(Lower(Name(Prog1)), n, 's');
    TooLong(n, Lower(Name(Prog1)));
  }

  lemma StereoButtonSkipsProg2(n: string)
    requires n == "btn_stereo"
    ensures !Matches(n, Name(Prog2))
  {
    BaseProg2();
    MissingChar(n, Base(Name(Prog2)), 'p');
    TooLong(Base(Name(Prog2)), n);
    MissingChar(Lower(Name(Prog2)), n, 's');
    TooLong(n, Lower(Name(Prog2)));
  }

  lemma StereoButtonSkipsRecord(n: string)
    requires n == "btn_stereo"
    ensures !Matches(n, Name(Record))
  {
    BaseRecord();
    MissingChar(n, Base(Name(Record)), 'c');
    MissingChar(Base(Name(Record)), n, 's');
    MissingChar(Lower(Name(Record)), n, 's');
    TooLong(n, Lower(Name(Record)));
  }

  lemma StereoButtonHitsStereo(n: string)
    requires n == "btn_stereo"
    ensures Matches(n, Name(Stereo))
  {
    BaseStereo();
    ContainsAt(n, Base(Name(Stereo)), 0);
  }

  lemma StereoButtonSkipsEarlier(n: string, j: int)
    requires n == "btn_stereo"
    requires 0 <= j < 13
    ensures !Matches(n, Name(Table[j]))
  {
    if j == 0 {
      assert Table[j] == Button;
      StereoButtonSkipsButton(n);
    } else if j == 1 {
      assert Table[j] == Tray;
      StereoButtonSkipsTray(n);
    } else if j == 2 {
      assert Table[j] == Tape;
      StereoButtonSkipsTape(n);
    } else if j == 3 {
      assert Table[j] == Power;
      StereoButtonSkipsPower(n);
    } else if j == 4 {
      assert Table[j] == Play;
      StereoButtonSkipsPlay(n);
    } else if j == 5 {
      assert Table[j] == Volume;
      StereoButtonSkipsVolume(n);
    } else if j == 6 {
      assert Table[j] == VhdMaskL;
      StereoButtonSkipsVhdMaskL(n);
    } else if j == 7 {
      assert Table[j] == VhdMaskR;
      StereoButtonSkipsVhdMaskR(n);
    } else if j == 8 {
      assert Table[j] == ForwardBtn;
      StereoButtonSkipsForwardBtn(n);
    } else if j == 9 {
      assert Table[j] == BackwardBtn;
      StereoButtonSkipsBackwardBtn(n);
    } else if j == 10 {
      assert Table[j] == Prog1;
      StereoButtonSkipsProg1(n);
    } else if j == 11 {
      assert Table[j] == Prog2;
      StereoButtonSkipsProg2(n);
    } else if j == 12 {
      assert Table[j] == Record;
      StereoButtonSkipsRecord(n);
    }
  }

  lemma StereoButtonResolvesFor(obj: string)
    requires obj == "btn_STEREO"
    ensures FindClip(obj) == Some(Stereo)
  {
    var n := Lower(obj);
    assert n == "btn_stereo";
    StereoButtonHitsStereo(n);
    assert Index(Stereo) == 13;
    forall j | 0 <= j < Index(Stereo)
      ensures !Matches(n, Name(Table[j]))
    {
      StereoButtonSkipsEarlier(n, j);
    }
    FirstMatchIsFound(obj, Stereo);
  }

  /** The stereo-button toggle resolves `btn_STEREO` to the stereo clip. */
  lemma StereoButtonResolves()
    ensures FindClip("btn_STEREO") == Some(Stereo)
  {
    StereoButtonResolvesFor("btn_STEREO");
  }

  lemma TapeWheelSkipsButton(n: string)
    requires n == "tape_wheele_l"
    ensures !Matches(n, Name(Button))
  {
    BaseButton();
    MissingChar(n, Base(Name(Button)), 'b');
    TooLong(Base(Name(Button)), n);
    MissingChar(Lower(Name(Button)), n, 'p');
    TooLong(n, Lower(Name(Button)));
  }

  lemma TapeWheelSkipsTray(n: string)
    requires n == "tape_wheele_l"
    ensures !Matches(n, Name(Tray))
  {
    BaseTray();
    TooLong(n, Base(Name(Tray)));
    MissingChar(Base(Name(Tray)), n, 'p');
    MissingChar(Lower(Name(Tray)), n, 'p');
    TooLong(n, Lower(Name(Tray)));
  }

  lemma TapeWheelHitsTape(n: string)
    requires n == "tape_wheele_l"
    ensures Matches(n, Name(Tape))
  {
    BaseTape();
    ContainsAt(n, Base(Name(Tape)), 0);
  }

  lemma TapeWheelSkipsEarlier(n: string, j: int)
    requires n == "tape_wheele_l"
    requires 0 <= j < 2
    ensures !Matches(n, Name(Table[j]))
  {
    if j == 0 {
      assert Table[j] == Button;
      TapeWheelSkipsButton(n);
    } else if j == 1 {
      assert Table[j] == Tray;
      TapeWheelSkipsTray(n);
    }
  }

  lemma TapeWheelResolvesToTapeFor(obj: string)
    requires obj == "Tape_wheele_L"
    ensures FindClip(obj) == Some(Tape)
  {
    var n := Lower(obj);
    assert n == "tape_wheele_l";
    TapeWheelHitsTape(n);
    assert Index(Tape) == 2;
    forall j | 0 <= j < Index(Tape)
      ensures !Matches(n, Name(Table[j]))
    {
      TapeWheelSkipsEarlier(n, j);
    }
    FirstMatchIsFound(obj, Tape);
  }

  /** A click on a tape-wheel mesh resolves to the tape clip, because its name contains `tape`. */
  lemma TapeWheelResolvesToTape()
    ensures FindClip("Tape_wheele_L") == Some(Tape)
  {
    TapeWheelResolvesToTapeFor("Tape_wheele_L");
  }
}

=== FILE: led_props.dfy ===
/**
 How the tracker's transitions reach the LEDs: a pressed button lights its LED at once, the
 release run's finish darkens it, and the power-off finish darkens every LED.
 */
module LedProperties {

  import opened Wrappers
  import opened Clips
  import opened Tracker
  import opened Leds

  /** Toggling a resting button while the power is on marks it pressed before its run ends,
      so the refresh the toggle asks for already lights its LED. */
  lemma PressLightsAtOnce(s: State, actions: set<Clip>, led: string, audio: bool)
    requires s.powerOn
    requires Wiring(led).ButtonLamp? && Wiring(led).clip in actions && View(s, Wiring(led).clip) == IdleView
    ensures var t := ToggleClip(s, actions, Wiring(led).clip);
            RefreshLeds in t.effects && Decide(led, t.state.powerOn, audio, t.state.pressed).on
  {
  }

  /** The finish of a button's release run unmarks it and refreshes the LEDs, which leaves its
      LED dark. */
  lemma ReleaseDarkens(s: State, led: string, audio: bool)
    requires Wiring(led).ButtonLamp? && IsDir(s, Wiring(led).clip, Reverse)
    ensures var r := Finish(s, Some(Wiring(led).clip));
            RefreshLeds in r.effects && !Decide(led, r.state.powerOn, audio, r.state.pressed).on
  {
  }

  /** The finish of the power button's release run turns the power off and refreshes the LEDs,
      which leaves every LED dark. */
  lemma PowerOffDarkensAll(s: State, audio: bool)
    requires IsDir(s, Power, Reverse)
    ensures var r := Finish(s, Some(Power));
            && !r.state.powerOn && RefreshLeds in r.effects
            && forall led :: !Decide(led, r.state.powerOn, audio, r.state.pressed).on
  {
  }
}

=== FILE: leds.dfy ===
/**
 The LED decision of the cassette deck: which LED meshes glow, in which colour and how
 brightly, given the power flag, the audio-playback flag and the set of pressed clips.
 */
module Leds {

  import opened Wrappers
  import opened Clips

  datatype Color = Mint | Green | Red

  /** The colour as the hex string the emissive colour is set to. */
  function Hex(c: Color): string {
    match c
    case Mint => "#4DFFAE"
    case Green => "#00ff00"
    case Red => "#ff0000"
  }

  /** LED meshes that glow whenever the power is on. */
  const PowerLedNames: seq<string> := ["VHD_LED_L", "VHD_LED_R", "VHD_BAR_numbers", "VHD_BAR_L", "VHD_BAR_R"]

  /** Button clip to the LED mesh it lights, in the table's order. */
  const ButtonLedMap: seq<(Clip, string)> :=
    [(BackwardBtn, "LED_BACKWARD"), (ForwardBtn, "LED_FORWARD"), (Play, "LED_PLAY"),
     (Record, "LED_RECORD"), (Prog2, "LED_EDIT")]

  /** Materials that glow three times brighter than the rest. */
  const BoostMaterials: set<string> := {"Mat_LED_RECORD", "Mat_LED_FORWARD", "Mat_LED_BACKWARD"}

  /** The emissive intensity of a lit LED, in tenths (1.1). */
  const IntensityOnTenths: nat := 11
  const BoostFactor: nat := 3

  datatype Decision = Decision(on: bool, color: Color)

  // ----- The decision as written: power LEDs, the play special case, the map scan, the red override -----

  /** The first clip of `table` whose LED is `led` (the scan stops at the first hit). */
  function ScanButtonMap(table: seq<(Clip, string)>, led: string): (r: Option<Clip>)
    ensures r.None? <==> forall i | 0 <= i < |table| :: table[i].1 != led
    ensures r.Some? ==> exists i | 0 <= i < |table| :: table[i] == (r.value, led) && forall j | 0 <= j < i :: table[j].1 != led
  {
    if |table| == 0 then None
    else if table[0].1 == led then Some(table[0].0)
    else
      var r := ScanButtonMap(table[1..], led);
      assert r.Some? ==> exists i | 0 <= i < |table[1..]| :: table[1..][i] == (r.value, led) && forall j | 0 <= j < i :: table[1..][j].1 != led;
      r
  }

  /** The red LEDs and the clip each one follows. */
  function RedButton(led: string): Option<Clip> {
    if led in ["LED_RECORD", "LED_FORWARD", "LED_BACKWARD"] then
      Some(if led == "LED_RECORD" then Record else if led == "LED_FORWARD" then ForwardBtn else BackwardBtn)
    else None
  }

  /** Whether LED mesh `led` glows, and in which colour: as the wiring table says (power LEDs
      follow the power, LED_PLAY the audio playback, LED_BACKWARD, LED_FORWARD and LED_RECORD
      their buttons in red, LED_EDIT the second program button in green, every other mesh
      stays dark), and never while the power is off. */
  function Decide(led: string, power: bool, audio: bool, pressed: set<Clip>): (d: Decision)
    ensures d == Lamp(Wiring(led), power, audio, pressed)
    ensures d.on ==> power
  {
    if led in PowerLedNames then Decision(power, Mint)
    else if led == "LED_PLAY" then Decision(power && audio, Green)
    else
      var scanned :=
        match ScanButtonMap(ButtonLedMap, led)
        case None => Decision(false, Mint)
        case Some(c) => Decision(power && c in pressed, Green);
      match RedButton(led)
      case None => scanned
      case Some(c) => Decision(power && c in pressed, Red)
  }

  // ----- The wiring the decision implements -----

  /** What an LED mesh is wired to. */
  datatype Wire =
    | PowerRail                       // glows with the power
    | PlaybackLamp                    // glows while audio plays (and the power is on)
    | ButtonLamp(clip: Clip, color: Color) // glows while its button is pressed (and the power is on)
    | Unwired

  function Wiring(led: string): Wire {
    if led in PowerLedNames then PowerRail
    else if led == "LED_PLAY" then PlaybackLamp
    else if led == "LED_BACKWARD" then ButtonLamp(BackwardBtn, Red)
    else if led == "LED_FORWARD" then ButtonLamp(ForwardBtn, Red)
    else if led == "LED_RECORD" then ButtonLamp(Record, Red)
    else if led == "LED_EDIT" then ButtonLamp(Prog2, Green)
    else Unwired
  }

  function Lamp(w: Wire, power: bool, audio: bool, pressed: set<Clip>): Decision {
    match w
    case PowerRail => Decision(power, Mint)
    case PlaybackLamp => Decision(power && audio, Green)
    case ButtonLamp(c, color) => Decision(power && c in pressed, color)
    case Unwired => Decision(false, Mint)
  }

  // ----- Painting the materials -----

  datatype Emissive = NoEmissive | EmissiveColor(hex: string)

  datatype Material = Material(name: string, emissive: Emissive, intensityTenths: nat, toneMapped: bool)

  /** An LED mesh with its material slots; an empty slot is skipped. */
  datatype Mesh = Mesh(name: string, materials: seq<Option<Material>>)

  /** The emissive intensity a lit material gets. */
  function LitIntensity(matName: string): nat {
    if matName in BoostMaterials then IntensityOnTenths * BoostFactor else IntensityOnTenths
  }

  /** Set one material to decision `d`. */
  function Paint(mat: Material, d: Decision): (m: Material)
    ensures m.name == mat.name
    ensures m.intensityTenths > 0 <==> d.on
    ensures d.on ==> m.intensityTenths == IntensityOnTenths * (if mat.name in BoostMaterials then BoostFactor else 1)
    ensures m.toneMapped <==> !d.on
    ensures m.emissive.EmissiveColor? <==> mat.emissive.EmissiveColor?
    ensures d.on && mat.emissive.EmissiveColor? ==> m.emissive.hex == Hex(d.color)
    ensures !d.on ==> m.emissive == mat.emissive
  {
    if d.on then
      mat.(emissive := if mat.emissive.EmissiveColor? then EmissiveColor(Hex(d.color)) else mat.emissive,
           intensityTenths := LitIntensity(mat.name), toneMapped := false)
    else
      mat.(intensityTenths := 0, toneMapped := true)
  }

  function PaintSlot(slot: Option<Material>, d: Decision): Option<Material> {
    match slot
    case None => None
    case Some(m) => Some(Paint(m, d))
  }

  function PaintMesh(mesh: Mesh, power: bool, audio: bool, pressed: set<Clip>): (r: Mesh)
    ensures r.name == mesh.name && |r.materials| == |mesh.materials|
  {
    var d := Decide(mesh.name, power, audio, pressed);
    Mesh(mesh.name, seq(|mesh.materials|, k requires 0 <= k < |mesh.materials| => PaintSlot(mesh.materials[k], d)))
  }

  /** `updateLEDStates`: every material of every LED mesh glows exactly when its mesh's wire
      is live, and the meshes keep their names and slots. */
  function Refresh(leds: seq<Mesh>, power: bool, audio: bool, pressed: set<Clip>): (r: seq<Mesh>)
    ensures |r| == |leds|
    ensures forall i | 0 <= i < |r| :: r[i].name == leds[i].name && |r[i].materials| == |leds[i].materials|
    ensures forall i, k | 0 <= i < |r| && 0 <= k < |r[i].materials| ::
              && (r[i].materials[k].Some? <==> leds[i].materials[k].Some?)
              && (r[i].materials[k].Some? ==>
                    (r[i].materials[k].value.intensityTenths > 0 <==> Lamp(Wiring(leds[i].name), power, audio, pressed).on))
  {
    seq(|leds|, i requires 0 <= i < |leds| => PaintMesh(leds[i], power, audio, pressed))
  }

  /** With the power off every LED material is dark and tone-mapped. */
  lemma PowerOffDarkens(leds: seq<Mesh>, audio: bool, pressed: set<Clip>)
    ensures var r := Refresh(leds, false, audio, pressed);
            forall i, k | 0 <= i < |r| && 0 <= k < |r[i].materials| && r[i].materials[k].Some? ::
              r[i].materials[k].value.intensityTenths == 0 && r[i].materials[k].value.toneMapped
  {
  }

  /** Painting a mesh twice with the same inputs is painting it once. */
  lemma PaintMeshIdempotent(mesh: Mesh, power: bool, audio: bool, pressed: set<Clip>)
    ensures PaintMesh(PaintMesh(mesh, power, audio, pressed), power, audio, pressed) == PaintMesh(mesh, power, audio, pressed)
  {
    var once := PaintMesh(mesh, power, audio, pressed);
    var twice := PaintMesh(once, power, audio, pressed);
    assert twice.materials == once.materials by {
      forall k | 0 <= k < |once.materials|
        ensures twice.materials[k] == once.materials[k]
      {
        assert once.materials[k] == PaintSlot(mesh.materials[k], Decide(mesh.name, power, audio, pressed));
      }
    }
  }

  /** Refreshing twice with the same inputs is refreshing once. */
  lemma RefreshIdempotent(leds: seq<Mesh>, power: bool, audio: bool, pressed: set<Clip>)
    ensures Refresh(Refresh(leds, power, audio, pressed), power, audio, pressed) == Refresh(leds, power, audio, pressed)
  {
    var once := Refresh(leds, power, audio, pressed);
    forall i | 0 <= i < |leds|
      ensures PaintMesh(once[i], power, audio, pressed) == once[i]
    {
      PaintMeshIdempotent(leds[i], power, audio, pressed);
    }
  }
}

=== FILE: lookup.dfy ===
/**
 `findClipFromObjectName`: the scan of the clip table with the name matcher, and
 the first-match properties it has.
 */
module Lookup {

  import opened Wrappers
  import opened Clips
  import opened Text
  import opened Resolver

  /** `findClipFromObjectName`: `None` for the empty name; otherwise the first clip, in table
      order, whose name matches the lower-cased object name, or `None` when no clip matches. */
  function FindClip(objName: string): (r: Option<Clip>)
    ensures objName == [] ==> r == None
    ensures objName != [] && r.None? ==> forall c: Clip :: !Matches(Lower(objName), Name(c))
    ensures r.Some? ==> && objName != []
                        && Matches(Lower(objName), Name(r.value))
                        && forall j :: 0 <= j < Index(r.value) ==> !Matches(Lower(objName), Name(Table[j]))
  {
    if objName == [] then None
    else
      var r := FirstWhere(Matcher(Lower(objName)), Table);
      if r.None? then NoneInTable(Lower(objName)); r
      else FirstInTable(Lower(objName), r.value); r
  }

  lemma Unmatched(n: string, c: Clip)
    requires !Matcher(n)(c)
    ensures !Matches(n, Name(c))
  {
  }

  lemma Matched(n: string, c: Clip)
    requires Matcher(n)(c)
    ensures Matches(n, Name(c))
  {
  }

  /** A scan that finds nothing has passed over every member of the table. */
  lemma MissedByScan(p: Clip -> bool, t: seq<Clip>, c: Clip)
    requires FirstWhere(p, t).None? && c in t
    ensures !p(c)
  {
    var i :| 0 <= i < |t| && t[i] == c;
  }

  /** A scan of the clip table that finds nothing has passed over clip `c`. */
  lemma MissedInTable(p: Clip -> bool, c: Clip)
    requires FirstWhere(p, Table).None?
    ensures !p(c)
  {
    InTable(c);
    MissedByScan(p, Table, c);
  }

  /** A scan of the clip table that finds clip `c`: `c` satisfies `p` and no clip before it does. */
  lemma HitInTable(p: Clip -> bool, c: Clip)
    requires FirstWhere(p, Table) == Some(c)
    ensures p(c) && forall j :: 0 <= j < Index(c) ==> !p(Table[j])
  {
    var i :| 0 <= i < |Table| && Table[i] == c && p(Table[i])
             && forall j :: 0 <= j < i ==> !p(Table[j]);
    IndexOfTableEntry(i);
  }

  /** A scan of the clip table finds the first clip, in table order, that satisfies `p`. */
  lemma FirstHitIsFound(p: Clip -> bool, c: Clip)
    requires p(c) && forall j :: 0 <= j < Index(c) ==> !p(Table[j])
    ensures FirstWhere(p, Table) == Some(c)
  {
    var r := FirstWhere(p, Table);
    if r.None? {
      MissedInTable(p, c);
    }
    SameFirstHit(p, r.value, c);
  }

  /** Two clips that are each the first in the table to satisfy `p` are the same clip. */
  lemma SameFirstHit(p: Clip -> bool, d: Clip, c: Clip)
    requires FirstWhere(p, Table) == Some(d)
    requires p(c) && forall j :: 0 <= j < Index(c) ==> !p(Table[j])
    ensures d == c
  {
    HitInTable(p, d);
    FirstSatisfierUnique(p, d, c);
  }

  /** No clip matches a name the scan found nothing for. */
  lemma Unmatchable(n: string, c: Clip)
    requires FirstWhere(Matcher(n), Table).None?
    ensures !Matches(n, Name(c))
  {
    MissedInTable(Matcher(n), c);
    Unmatched(n, c);
  }

  /** A scan of the clip table that finds nothing: no clip matches. */
  lemma NoneInTable(n: string)
    requires FirstWhere(Matcher(n), Table).None?
    ensures forall c: Clip :: !Matches(n, Name(c))
  {
    forall c: Clip
      ensures !Matches(n, Name(c))
    {
      Unmatchable(n, c);
    }
  }

  /** A scan of the clip table that finds a clip: it matches and no clip earlier in the table does. */
  lemma FirstInTable(n: string, c: Clip)
    requires FirstWhere(Matcher(n), Table) == Some(c)
    ensures Matches(n, Name(c))
    ensures forall j :: 0 <= j < Index(c) ==> !Matches(n, Name(Table[j]))
  {
    HitInTable(Matcher(n), c);
    Matched(n, c);
    forall j | 0 <= j < Index(c)
      ensures !Matches(n, Name(Table[j]))
    {
      Unmatched(n, Table[j]);
    }
  }

  /** Conversely, the first clip in table order that matches is the one found. */
  lemma FirstMatchIsFound(objName: string, c: Clip)
    requires objName != []
    requires Matches(Lower(objName), Name(c))
    requires forall j :: 0 <= j < Index(c) ==> !Matches(Lower(objName), Name(Table[j]))
    ensures FindClip(objName) == Some(c)
  {
    var n := Lower(objName);
    assert Matcher(n)(c);
    forall j | 0 <= j < Index(c)
      ensures !Matcher(n)(Table[j])
    {
      assert !Matches(n, Name(Table[j]));
    }
    FirstHitIsFound(Matcher(n), c);
  }

  /** `c` is the clip the lookup resolves `objName` to: the name is nonempty, `c` matches it,
      and no clip earlier in the table does. */
  predicate FirstMatch(objName: string, c: Clip) {
    && objName != []
    && Matches(Lower(objName), Name(c))
    && forall j :: 0 <= j < Index(c) ==> !Matches(Lower(objName), Name(Table[j]))
  }

  /** A name has at most one first match. */
  lemma FirstMatchUnique(objName: string, c: Clip, d: Clip)
    requires FirstMatch(objName, c) && FirstMatch(objName, d)
    ensures c == d
  {
    FirstSatisfierUnique(Matcher(Lower(objName)), c, d);
  }

  /** At most one clip is the first in table order to satisfy `p`. */
  lemma FirstSatisfierUnique(p: Clip -> bool, c: Clip, d: Clip)
    requires p(c) && forall j :: 0 <= j < Index(c) ==> !p(Table[j])
    requires p(d) && forall j :: 0 <= j < Index(d) ==> !p(Table[j])
    ensures c == d
  {
    assert Table[Index(c)] == c && Table[Index(d)] == d;
  }

  /** The lookup returns `c` exactly when `c` is the name's first match. */
  lemma FindClipIsFirstMatch(objName: string, c: Clip)
    ensures FindClip(objName) == Some(c) <==> FirstMatch(objName, c)
  {
    if FirstMatch(objName, c) {
      FirstMatchIsFound(objName, c);
    }
  }

  /** A found clip is the name's only first match. */
  lemma FoundIsOnlyMatch(objName: string, c: Clip)
    requires FindClip(objName) == Some(c)
    ensures FirstMatch(objName, c)
    ensures forall d :: FirstMatch(objName, d) ==> d == c
  {
    forall d | FirstMatch(objName, d)
      ensures d == c
    {
      FirstMatchUnique(objName, c, d);
    }
  }

  /** A name the lookup finds nothing for has no first match. */
  lemma UnfoundHasNoMatch(objName: string)
    requires FindClip(objName).None?
    ensures forall c :: !FirstMatch(objName, c)
  {
  }


  /** The lookup ignores case: a lower-cased name resolves as the name does. */
  lemma FindIgnoresCase(objName: string)
    ensures FindClip(Lower(objName)) == FindClip(objName)
  {
    LowerIdempotent(objName);
  }
}

=== FILE: resolver.dfy ===
/**
 Resolution of a clicked scene object's name to the animation clip it
 drives: ordered, case-insensitive substring matching over the clip table.
 */
module Resolver {

  import opened Wrappers
  import opened Clips
  import opened Text

  /** The key a clip name is matched by: `_Action` stripped, `[-\s]` rewritten to `_`, lower-cased. */
  function Base(clipName: string): string {
    Lower(Underscored(StripActionSuffix(clipName)))
  }

  /** The lower-cased object name `n` and the clip name match when either contains the other,
      comparing first with the clip's base and then with its whole lower-cased name. */
  predicate Matches(n: string, clipName: string) {
    || Contains(n, Base(clipName)) || Contains(Base(clipName), n)
    || Contains(Lower(clipName), n) || Contains(n, Lower(clipName))
  }

  /** Whether a clip's name matches the lower-cased object name `n`. */
  function Matcher(n: string): Clip -> bool {
    c => Matches(n, Name(c))
  }

  /** The first clip of `table` satisfying `p`. */
  function FirstWhere(p: Clip -> bool, table: seq<Clip>): (r: Option<Clip>)
    ensures r.None? <==> forall i :: 0 <= i < |table| ==> !p(table[i])
    ensures r.Some? ==> exists i :: 0 <= i < |table| && table[i] == r.value && p(table[i])
                                    && forall j :: 0 <= j < i ==> !p(table[j])
  {
    if |table| == 0 then None
    else if p(table[0]) then Some(table[0])
    else
      var r := FirstWhere(p, table[1..]);
      assert r.Some? ==> exists i :: 0 <= i < |table[1..]| && table[1..][i] == r.value && p(table[1..][i])
                                     && forall j :: 0 <= j < i ==> !p(table[1..][j]);
      r
  }

  /** The base of an identifier followed by an `_Action` suffix (in any case) is the identifier, lower-cased. */
  lemma BaseOfWord(stem: string, suffix: string)
    requires Lower(suffix) == ActionSuffix
    requires forall i :: 0 <= i < |stem| ==> IsWordChar(stem[i])
    ensures Base(stem + suffix) == Lower(stem)
    ensures Lower(stem + suffix) == Lower(stem) + ActionSuffix
  {
    var s := stem + suffix;
    assert s[|s| - |ActionSuffix|..] == suffix;
    assert StripActionSuffix(s) == stem;
    UnderscoredWord(stem);
  }
}

=== FILE: sequence_props.dfy ===
/**
 Properties of the three-clip cassette sequence: a load followed by an
 eject returns the tracker to where it started, a fast double click on the
 cassette button starts the tray and tape only once and queues the eject,
 and the forced unload ejects from any state.
 */
module SequenceProperties {

  import opened Wrappers
  import opened Clips
  import opened Tracker
  import KnownNames

  predicate GroupIs(s: State, v: ClipView) {
    View(s, Button) == v && View(s, Tray) == v && View(s, Tape) == v
  }

  const Loaded: ClipView := ClipView(true, None, false)

  /** The three runs of a load, from a group at rest: the cassette button starts, the
      deferred stage starts tray and tape, and each forward run finishes. */
  lemma LoadCompletes(s: State, actions: set<Clip>)
    requires AllActions(actions) && GroupIs(s, IdleView)
    ensures var t1 := Load(s, actions);
            var t2 := OnTimer(t1.state, LoadStage);
            var t3 := Finish(t2.state, Some(Button));
            var t4 := Finish(t3.state, Some(Tray));
            var t5 := Finish(t4.state, Some(Tape));
            && t1.effects == [StartForward(Button), Schedule(LoadStageDelay, LoadStage)]
            && t2.effects == [StartForward(Tray), StartForward(Tape)]
            && NotifyLoaded in t3.effects
            && GroupIs(t5.state, Loaded)
            && LoadRun(s, actions) == t5.state
            && SameOutside(s, t5.state, LoadGroup) && t5.state.powerOn == s.powerOn
  {
    LoadStarts(s, actions);
    var t2 := OnTimer(Load(s, actions).state, LoadStage);
    ForwardsFinish(t2.state);
    SameOutsideTrans(s, t2.state, LoadRun(s, actions));
  }

  /** The load's cassette click and its deferred stage set all three clips running forward. */
  lemma LoadStarts(s: State, actions: set<Clip>)
    requires AllActions(actions) && GroupIs(s, IdleView)
    ensures var t1 := Load(s, actions);
            var t2 := OnTimer(t1.state, LoadStage);
            && t1.effects == [StartForward(Button), Schedule(LoadStageDelay, LoadStage)]
            && t2.effects == [StartForward(Tray), StartForward(Tape)]
            && GroupIs(t2.state, ClipView(false, Some(Forward), false))
            && SameOutside(s, t2.state, LoadGroup) && t2.state.powerOn == s.powerOn
  {
    var t1 := Load(s, actions);
    var t2 := OnTimer(t1.state, LoadStage);
    assert View(t2.state, Button) == View(t1.state, Button);
  }

  /** A click on a tape-wheel mesh while the load's deferred stage runs the tray and tape
      forward: that stage starts them without marking them pressed, so the generic toggle takes
      its queueing branch. The tape's reverse is queued silently and starts when its forward
      run finishes. */
  lemma TapeClickDuringLoadQueues(s: State, actions: set<Clip>, obj: string)
    requires AllActions(actions) && GroupIs(s, IdleView)
    requires obj == "Tape_wheele_L"
    ensures var t2 := OnTimer(Load(s, actions).state, LoadStage).state;
            var r := Toggle(t2, actions, obj);
            && View(r.state, Tape) == ClipView(false, Some(Forward), true)
            && SameOutside(t2, r.state, {Tape}) && r.effects == []
            && Finish(r.state, Some(Tape)).effects == [StartReverse(Tape)]
            && View(Finish(r.state, Some(Tape)).state, Tape) == ClipView(false, Some(Reverse), false)
  {
    LoadStarts(s, actions);
    KnownNames.TapeWheelResolvesToTapeFor(obj);
  }

  /** The three forward runs of the load group finish, the button's first. */
  lemma ForwardsFinish(s: State)
    requires GroupIs(s, ClipView(false, Some(Forward), false))
    ensures var t3 := Finish(s, Some(Button));
            var t4 := Finish(t3.state, Some(Tray));
            var t5 := Finish(t4.state, Some(Tape));
            && NotifyLoaded in t3.effects
            && GroupIs(t5.state, Loaded)
            && SameOutside(s, t5.state, LoadGroup) && t5.state.powerOn == s.powerOn
  {
    var t3 := Finish(s, Some(Button));
    ForwardFinishes(s, Button);
    var t4 := Finish(t3.state, Some(Tray));
    ForwardFinishes(t3.state, Tray);
    ForwardFinishes(t4.state, Tape);
  }

  /** One unqueued forward run of a clip other than the power button finishes. */
  lemma ForwardFinishes(s: State, c: Clip)
    requires View(s, c) == ClipView(false, Some(Forward), false) && c != Power
    ensures var r := Finish(s, Some(c));
            && View(r.state, c) == Loaded && OnlyTouches(s, r.state, c)
            && (c == Button ==> NotifyLoaded in r.effects)
  {
  }

  /** One unqueued reverse run of a clip other than the power button finishes. */
  lemma ReverseFinishes(s: State, c: Clip)
    requires IsDir(s, c, Reverse) && c !in s.pendingReverse && c != Power
    ensures var r := Finish(s, Some(c));
            View(r.state, c) == IdleView && OnlyTouches(s, r.state, c)
  {
  }

  /** The eject, from a loaded group: the cassette button schedules the stagger, the deferred
      callbacks run in delay order (tray 0 ms, tape 100 ms, then the unload notice and the
      button at 900 ms), and each reverse run finishes. */
  lemma EjectCompletes(s: State, actions: set<Clip>)
    requires AllActions(actions) && GroupIs(s, Loaded)
    ensures var e1 := Load(s, actions);
            var e2 := OnTimer(e1.state, DeferredReverse(Tray));
            var e3 := OnTimer(e2.state, DeferredReverse(Tape));
            var e4 := OnTimer(e3.state, TapeUnloadNotice);
            var e5 := OnTimer(e4.state, DeferredReverse(Button));
            var e6 := Finish(e5.state, Some(Tray));
            var e7 := Finish(e6.state, Some(Tape));
            var e8 := Finish(e7.state, Some(Button));
            && e1.effects == [Schedule(ButtonEjectDelay, TapeUnloadNotice)] + EjectSchedule
            && e4.effects == [NotifyTapeUnload]
            && GroupIs(e8.state, IdleView)
            && EjectRun(s, actions) == e8.state
            && SameOutside(s, e8.state, LoadGroup) && e8.state.powerOn == s.powerOn
  {
    EjectStarts(s, actions);
    var e1 := Load(s, actions);
    var e2 := OnTimer(e1.state, DeferredReverse(Tray));
    var e3 := OnTimer(e2.state, DeferredReverse(Tape));
    var e4 := OnTimer(e3.state, TapeUnloadNotice);
    var e5 := OnTimer(e4.state, DeferredReverse(Button));
    ReversesFinish(e5.state);
    SameOutsideTrans(s, e5.state, EjectRun(s, actions));
  }

  /** The eject's cassette click and its deferred callbacks set all three clips running in
      reverse. */
  lemma EjectStarts(s: State, actions: set<Clip>)
    requires AllActions(actions) && GroupIs(s, Loaded)
    ensures var e1 := Load(s, actions);
            var e2 := OnTimer(e1.state, DeferredReverse(Tray));
            var e3 := OnTimer(e2.state, DeferredReverse(Tape));
            var e4 := OnTimer(e3.state, TapeUnloadNotice);
            var e5 := OnTimer(e4.state, DeferredReverse(Button));
            && e1.effects == [Schedule(ButtonEjectDelay, TapeUnloadNotice)] + EjectSchedule
            && e4.effects == [NotifyTapeUnload]
            && Reversing(e5.state)
            && SameOutside(s, e5.state, LoadGroup) && e5.state.powerOn == s.powerOn
  {
    var e1 := Load(s, actions);
    assert e1.state == s;
  }

  /** All three clips of the load group run in reverse, none with a queued reverse. */
  predicate Reversing(s: State) {
    forall g | g in LoadGroup :: IsDir(s, g, Reverse) && g !in s.pendingReverse
  }

  lemma SameOutsideTrans(s: State, t: State, u: State)
    requires SameOutside(s, t, LoadGroup) && SameOutside(t, u, LoadGroup)
    ensures SameOutside(s, u, LoadGroup)
  {
  }

  /** The state after the load's runs. */
  function LoadRun(s: State, actions: set<Clip>): State {
    var t1 := Load(s, actions);
    var t2 := OnTimer(t1.state, LoadStage);
    var t3 := Finish(t2.state, Some(Button));
    var t4 := Finish(t3.state, Some(Tray));
    Finish(t4.state, Some(Tape)).state
  }

  /** The state after the eject's runs. */
  function EjectRun(s: State, actions: set<Clip>): State {
    var e1 := Load(s, actions);
    var e2 := OnTimer(e1.state, DeferredReverse(Tray));
    var e3 := OnTimer(e2.state, DeferredReverse(Tape));
    var e4 := OnTimer(e3.state, TapeUnloadNotice);
    var e5 := OnTimer(e4.state, DeferredReverse(Button));
    var e6 := Finish(e5.state, Some(Tray));
    var e7 := Finish(e6.state, Some(Tape));
    Finish(e7.state, Some(Button)).state
  }

  lemma LoadRunLoads(s: State, actions: set<Clip>)
    requires AllActions(actions) && GroupIs(s, IdleView)
    ensures var t := LoadRun(s, actions);
            GroupIs(t, Loaded) && SameOutside(s, t, LoadGroup) && t.powerOn == s.powerOn
  {
    LoadCompletes(s, actions);
  }

  lemma EjectRunEjects(s: State, actions: set<Clip>)
    requires AllActions(actions) && GroupIs(s, Loaded)
    ensures var t := EjectRun(s, actions);
            GroupIs(t, IdleView) && SameOutside(s, t, LoadGroup) && t.powerOn == s.powerOn
  {
    EjectCompletes(s, actions);
  }

  /** Two runs that each touch only the load group, ending where the first began on it,
      compose to the identity. */
  lemma GroupDetour(s: State, mid: State, back: State)
    requires SameOutside(s, mid, LoadGroup) && mid.powerOn == s.powerOn
    requires SameOutside(mid, back, LoadGroup) && back.powerOn == mid.powerOn
    requires GroupIs(s, IdleView) && GroupIs(back, IdleView)
    ensures back == s
  {
    forall c ensures View(back, c) == View(s, c) {
      if c !in LoadGroup {
        assert View(back, c) == View(mid, c);
      }
    }
    ViewsDetermineState(back, s);
  }

  /** Load then eject returns the whole tracker to the state it started from. */
  lemma LoadEjectRoundTrip(s: State, actions: set<Clip>)
    requires AllActions(actions) && GroupIs(s, IdleView)
    ensures EjectRun(LoadRun(s, actions), actions) == s
  {
    LoadRunLoads(s, actions);
    EjectRunEjects(LoadRun(s, actions), actions);
    GroupDetour(s, LoadRun(s, actions), EjectRun(LoadRun(s, actions), actions));
  }

  /** How many times `effects` schedules the tray-and-tape forward stage. */
  function StageSchedules(effects: seq<Effect>): (n: nat)
    ensures n <= |effects|
    ensures n == 0 <==> forall i :: 0 <= i < |effects| ==> !(effects[i].Schedule? && effects[i].event == LoadStage)
  {
    if |effects| == 0 then 0
    else
      (if effects[0].Schedule? && effects[0].event == LoadStage then 1 else 0) + StageSchedules(effects[1..])
  }

  /** A second cassette click while the button's forward run is in flight starts nothing: the
      stage is scheduled once over both clicks, and the eject is queued for all three clips. */
  lemma DoubleLoadQueuesEject(s: State, actions: set<Clip>)
    requires AllActions(actions) && GroupIs(s, IdleView)
    ensures var t1 := Load(s, actions);
            var t2 := Load(t1.state, actions);
            && t2.effects == []
            && StageSchedules(t1.effects + t2.effects) == 1
            && GroupIs(OnTimer(t2.state, LoadStage).state, ClipView(false, Some(Forward), true))
  {
    var t1 := Load(s, actions);
    var t2 := Load(t1.state, actions);
    assert t1.effects + t2.effects == [StartForward(Button), Schedule(LoadStageDelay, LoadStage)];
    assert StageSchedules([Schedule(LoadStageDelay, LoadStage)]) == 1;
  }

  /** After a double click, each clip's forward finish turns straight into its reverse run. */
  lemma QueuedEjectReverses(s: State, c: GroupClip)
    requires IsDir(s, c, Forward) && c in s.pendingReverse && c !in s.pressed
    ensures var r := Finish(s, Some(c));
            View(r.state, c) == ClipView(false, Some(Reverse), false) && r.effects == [StartReverse(c)]
  {
  }

  /** The forced unload ejects from any state: once its three deferred reverses have run and
      finished, the load group is at rest and nothing else has changed. */
  lemma UnloadAlwaysEjects(s: State, actions: set<Clip>)
    requires AllActions(actions)
    ensures var u := Unload(s, actions);
            var e2 := OnTimer(u.state, DeferredReverse(Tray));
            var e3 := OnTimer(e2.state, DeferredReverse(Tape));
            var e4 := OnTimer(e3.state, DeferredReverse(Button));
            var e5 := Finish(e4.state, Some(Tray));
            var e6 := Finish(e5.state, Some(Tape));
            var e7 := Finish(e6.state, Some(Button));
            && u.effects == [NotifyTapeUnload] + EjectSchedule
            && GroupIs(e7.state, IdleView)
            && SameOutside(s, e7.state, LoadGroup) && e7.state.powerOn == s.powerOn
  {
    var u := Unload(s, actions);
    ReversesStart(u.state);
    var e2 := OnTimer(u.state, DeferredReverse(Tray));
    var e3 := OnTimer(e2.state, DeferredReverse(Tape));
    var e4 := OnTimer(e3.state, DeferredReverse(Button));
    ReversesFinish(e4.state);
  }

  /** The load group at rest, its three deferred reverses fire. */
  lemma ReversesStart(s: State)
    requires GroupIs(s, IdleView)
    ensures var e2 := OnTimer(s, DeferredReverse(Tray));
            var e3 := OnTimer(e2.state, DeferredReverse(Tape));
            var e4 := OnTimer(e3.state, DeferredReverse(Button));
            && Reversing(e4.state)
            && SameOutside(s, e4.state, LoadGroup) && e4.state.powerOn == s.powerOn
  {
  }

  /** The three reverse runs of the load group finish. */
  lemma ReversesFinish(s: State)
    requires Reversing(s)
    ensures var e5 := Finish(s, Some(Tray));
            var e6 := Finish(e5.state, Some(Tape));
            var e7 := Finish(e6.state, Some(Button));
            && GroupIs(e7.state, IdleView)
            && SameOutside(s, e7.state, LoadGroup) && e7.state.powerOn == s.powerOn
  {
    var e5 := Finish(s, Some(Tray));
    ReverseFinishes(s, Tray);
    var e6 := Finish(e5.state, Some(Tape));
    ReverseFinishes(e5.state, Tape);
    ReverseFinishes(e6.state, Button);
  }
}

=== FILE: text.dfy ===
/**
 The string operations the name resolver and the click dispatcher use:
 lower-casing, the `_Action` suffix strip, the dash/whitespace rewrite, and
 substring containment (`String.prototype.includes`).
 */
module Text {

  predicate IsUpper(c: char) {
    'A' <= c <= 'Z'
  }

  /** Lower-case one character (ASCII letters only; see README). */
  function LowerChar(c: char): (r: char)
    ensures IsUpper(c) ==> 'a' <= r <= 'z' && r as int == c as int + 32
    ensures !IsUpper(c) ==> r == c
  {
    if IsUpper(c) then (c as int + 32) as char else c
  }

  /** `toLowerCase` on the ASCII range: the result has no upper-case letter, each upper-case
      letter becomes its lower-case partner, and every other character is kept. */
  function Lower(s: string): (r: string)
    ensures |r| == |s|
    ensures forall i :: 0 <= i < |r| ==> !IsUpper(r[i])
    ensures forall i :: 0 <= i < |s| && !IsUpper(s[i]) ==> r[i] == s[i]
    ensures forall i :: 0 <= i < |s| && IsUpper(s[i]) ==> r[i] != s[i] && r[i] as int == s[i] as int + 32
  {
    seq(|s|, i requires 0 <= i < |s| => LowerChar(s[i]))
  }

  /** Lower-casing twice is lower-casing once. */
  lemma LowerIdempotent(s: string)
    ensures Lower(Lower(s)) == Lower(s)
  {
    var once := Lower(s);
    assert forall i :: 0 <= i < |once| ==> Lower(once)[i] == once[i];
  }

  /** The characters matched by the regular-expression class `\s`. */
  predicate IsRegexSpace(c: char) {
    || c == ' ' || c == '\t' || c == '\n' || c == '\r' || c == '\U{000B}' || c == '\U{000C}'
    || c == '\U{00A0}' || c == '\U{1680}' || ('\U{2000}' <= c <= '\U{200A}')
    || c == '\U{2028}' || c == '\U{2029}' || c == '\U{202F}' || c == '\U{205F}'
    || c == '\U{3000}' || c == '\U{FEFF}'
  }

  /** A character of the class `[-\s]`. */
  predicate IsDashOrSpace(c: char) {
    c == '-' || IsRegexSpace(c)
  }

  /** `replace(/[-\s]/g, '_')`: the result has no dash or white space; those characters
      become underscores and every other character is kept. */
  function Underscored(s: string): (r: string)
    ensures |r| == |s|
    ensures forall i :: 0 <= i < |r| ==> !IsDashOrSpace(r[i])
    ensures forall i :: 0 <= i < |s| && IsDashOrSpace(s[i]) ==> r[i] == '_'
    ensures forall i :: 0 <= i < |s| && !IsDashOrSpace(s[i]) ==> r[i] == s[i]
    ensures (forall i :: 0 <= i < |s| ==> !IsDashOrSpace(s[i])) ==> r == s
  {
    seq(|s|, i requires 0 <= i < |s| => if IsDashOrSpace(s[i]) then '_' else s[i])
  }

  /** The rewrite applied twice is the rewrite applied once. */
  lemma UnderscoredIdempotent(s: string)
    ensures Underscored(Underscored(s)) == Underscored(s)
  {
  }

  const ActionSuffix: string := "_action"

  /** `s` ends in `_Action`, compared without regard to case (the regular expression `/_Action$/i`). */
  predicate HasActionSuffix(s: string) {
    |s| >= |ActionSuffix| && Lower(s[|s| - |ActionSuffix|..]) == ActionSuffix
  }

  /** Remove a trailing `_Action`; any other string is returned unchanged. */
  function StripActionSuffix(s: string): (r: string)
    ensures HasActionSuffix(s) ==> |r| + |ActionSuffix| == |s| && s == r + s[|r|..]
    ensures !HasActionSuffix(s) ==> r == s
  {
    if HasActionSuffix(s) then s[..|s| - |ActionSuffix|] else s
  }

  /** `t` occurs in `s` starting at position `i`. */
  predicate OccursAt(s: string, t: string, i: int) {
    0 <= i <= |s| - |t| && s[i..i + |t|] == t
  }

  /** `s.includes(t)`. */
  predicate Contains(s: string, t: string) {
    exists i | 0 <= i <= |s| - |t| :: OccursAt(s, t, i)
  }

  lemma ContainsAt(s: string, t: string, i: int)
    requires 0 <= i <= |s| - |t| && s[i..i + |t|] == t
    ensures Contains(s, t)
  {
    assert OccursAt(s, t, i);
  }

  /** A string that carries a character the haystack lacks does not occur in it. */
  lemma MissingChar(s: string, t: string, c: char)
    requires c in t && c !in s
    ensures !Contains(s, t)
  {
    var k :| 0 <= k < |t| && t[k] == c;
    forall i | 0 <= i <= |s| - |t|
      ensures !OccursAt(s, t, i)
    {
      assert s[i..i + |t|][k] == s[i + k] != c;
    }
  }

  /** A string longer than the haystack does not occur in it. */
  lemma TooLong(s: string, t: string)
    requires |t| > |s|
    ensures !Contains(s, t)
  {
  }

  /** An identifier character: an ASCII letter, a digit or an underscore. */
  predicate IsWordChar(c: char) {
    ('A' <= c <= 'Z') || ('a' <= c <= 'z') || ('0' <= c <= '9') || c == '_'
  }

  /** Identifiers pass the dash/whitespace rewrite unchanged. */
  lemma UnderscoredWord(s: string)
    requires forall i :: 0 <= i < |s| ==> IsWordChar(s[i])
    ensures Underscored(s) == s
  {
  }
}

=== FILE: tracker.dfy ===
/**
 The per-clip animation state tracker of the cassette-recorder model.

 The tracker keeps three collections keyed by clip, `pressed`,
 `playing` (clip to direction) and `pendingReverse`, plus the power flag.
 Every operation is a pure transition: it returns the next state and the
 effects `MayakModel` performs on the animation engine and on its host
 (starting a clip, scheduling a deferred callback, notifying an observer).
 A deferred callback firing and the engine's "finished" event are inputs
 like any other.
 */
module Tracker {

  import opened Wrappers
  import opened Clips
  import opened Text
  import opened Lookup
  import KnownNames

  datatype Dir = Forward | Reverse

  datatype State = State(
    pressed: set<Clip>,
    playing: map<Clip, Dir>,
    pendingReverse: set<Clip>,
    powerOn: bool)

  /** The state at scene load: nothing pressed or playing, power off. */
  const Initial: State := State({}, map[], {}, false)

  /** A callback handed to `setTimeout`; it runs when the environment fires it. */
  datatype Deferred =
    | LoadStage                        // tray and tape start forward
    | TapeUnloadNotice                 // `onTapeUnload` at the button's eject delay
    | DeferredReverse(clip: GroupClip) // one load-group clip starts its reverse run

  /** What a transition asks of the engine and of the host. */
  datatype Effect =
    | StartForward(clip: Clip)
    | StartReverse(clip: Clip)
    | Schedule(delayMs: nat, event: Deferred)
    | NotifyPower(on: bool)
    | NotifyTapeUnload
    | NotifyLoaded
    | RefreshLeds
    | RefreshTapeLight
    | RefreshRedZone
    | NotifySelectSong
    | NotifyPlayClick
    | NotifyStereoToggle

  datatype Step = Step(state: State, effects: seq<Effect>)

  /** Effects that carry no power notice. */
  predicate Quiet(effects: seq<Effect>) {
    forall e :: e in effects ==> !e.NotifyPower?
  }

  /** What the component re-runs after every change of its power state: the LEDs, the tape
      light and the red zone are refreshed against the new value. */
  const PowerEffect: seq<Effect> := [RefreshLeds, RefreshTapeLight, RefreshRedZone]

  /** Delay of the tray and tape forward start after the button (ms). */
  const LoadStageDelay: nat := 400
  /** Eject stagger (ms). */
  const TrayEjectDelay: nat := 0
  const TapeEjectDelay: nat := 100
  const ButtonEjectDelay: nat := 900

  /** The eject stagger both `playSequence` and `unloadCassette` schedule, in the
      order they schedule it (button, tray, tape). */
  const EjectSchedule: seq<Effect> := [
    Schedule(ButtonEjectDelay, DeferredReverse(Button)),
    Schedule(TrayEjectDelay, DeferredReverse(Tray)),
    Schedule(TapeEjectDelay, DeferredReverse(Tape))
  ]

  const LoadGroup: set<Clip> := {Button, Tray, Tape}

  // ----- Per-clip view, used to state what a transition changes -----

  /** Everything the tracker records about one clip. */
  datatype ClipView = ClipView(pressed: bool, dir: Option<Dir>, pending: bool)

  function View(s: State, c: Clip): ClipView {
    ClipView(c in s.pressed, if c in s.playing then Some(s.playing[c]) else None, c in s.pendingReverse)
  }

  const IdleView: ClipView := ClipView(false, None, false)

  predicate IsDir(s: State, c: Clip, d: Dir) {
    c in s.playing && s.playing[c] == d
  }

  /** `t` agrees with `s` on every clip outside `cs`. */
  predicate SameOutside(s: State, t: State, cs: set<Clip>) {
    forall d :: d !in cs ==> View(t, d) == View(s, d)
  }

  /** `t` agrees with `s` on the power flag and on every clip other than `c`. */
  predicate OnlyTouches(s: State, t: State, c: Clip) {
    t.powerOn == s.powerOn && SameOutside(s, t, {c})
  }

  /** Two states that agree on the power flag and on every clip's view are equal. */
  lemma ViewsDetermineState(s: State, t: State)
    requires s.powerOn == t.powerOn
    requires forall c :: View(s, c) == View(t, c)
    ensures s == t
  {
    assert s.pressed == t.pressed by {
      forall c ensures c in s.pressed <==> c in t.pressed {
        assert View(s, c).pressed == View(t, c).pressed;
      }
    }
    assert s.pendingReverse == t.pendingReverse by {
      forall c ensures c in s.pendingReverse <==> c in t.pendingReverse {
        assert View(s, c).pending == View(t, c).pending;
      }
    }
    assert s.playing == t.playing by {
      forall c ensures c in s.playing <==> c in t.playing {
        assert View(s, c).dir == View(t, c).dir;
      }
      forall c | c in s.playing ensures s.playing[c] == t.playing[c] {
        assert View(s, c).dir == View(t, c).dir;
      }
    }
  }

  // ----- Generic toggle (`toggleActionForObject`) -----

  /** The toggle once the object name has been resolved to clip `c`; `actions` is the set of
      clips whose action the loaded asset provides. */
  function ToggleClip(s: State, actions: set<Clip>, c: Clip): (r: Step)
    ensures OnlyTouches(s, r.state, c)
    ensures View(r.state, c).pending == (View(s, c).pending || (c in actions && View(s, c).pressed == false && IsDir(s, c, Forward)))
    ensures c !in actions ==> r == Step(s, [])
    ensures c in actions && c !in s.pressed && c !in s.playing ==>
              View(r.state, c).pressed && IsDir(r.state, c, Forward) && r.effects == [StartForward(c), RefreshLeds]
    ensures c in actions && c !in s.pressed && IsDir(s, c, Forward) ==>
              View(r.state, c).dir == Some(Forward) && !View(r.state, c).pressed && r.effects == []
    ensures c in actions && c in s.pressed && c !in s.playing ==>
              View(r.state, c).pressed && IsDir(r.state, c, Reverse) && r.effects == [StartReverse(c)]
    ensures IsDir(s, c, Reverse) || (c in s.pressed && c in s.playing) ==> r == Step(s, [])
    ensures forall e :: e in r.effects ==> e in [StartForward(c), StartReverse(c), RefreshLeds]
    ensures Quiet(r.effects)
  {
    if c !in actions then Step(s, [])
    else if c !in s.pressed && c !in s.playing then
      Step(s.(playing := s.playing[c := Forward], pressed := s.pressed + {c}), [StartForward(c), RefreshLeds])
    else if c !in s.pressed && s.playing[c] == Forward then
      Step(s.(pendingReverse := s.pendingReverse + {c}), [])
    else if c in s.pressed && c !in s.playing then
      Step(s.(playing := s.playing[c := Reverse]), [StartReverse(c)])
    else
      Step(s, [])
  }

  /** `toggleActionForObject(objName)`: the toggle of the clip the lookup resolves `objName` to;
      a silent no-op when it resolves to none. Only that clip changes, the power flag never does,
      and no power notice is emitted. */
  function Toggle(s: State, actions: set<Clip>, objName: string): (r: Step)
    ensures forall d :: FindClip(objName) != Some(d) ==> View(r.state, d) == View(s, d)
    ensures r.state.powerOn == s.powerOn && Quiet(r.effects)
  {
    match FindClip(objName)
    case None => Step(s, [])
    case Some(c) => ToggleClip(s, actions, c)
  }

  // ----- The mixer's "finished" event (`onFinished`) -----

  /** A run of clip `clip` (None: the event carries no clip name) has finished. */
  function Finish(s: State, clip: Option<Clip>): (r: Step)
    ensures clip.None? || clip.value !in s.playing ==> r == Step(s, [])
    ensures clip.Some? ==> SameOutside(s, r.state, {clip.value})
    ensures clip.Some? && IsDir(s, clip.value, Forward) && clip.value in s.pendingReverse ==>
              var c := clip.value;
              && View(r.state, c) == ClipView(c in s.pressed, Some(Reverse), false)
              && r.state.powerOn == s.powerOn
              && r.effects == [StartReverse(c)]
    ensures clip.Some? && IsDir(s, clip.value, Forward) && clip.value !in s.pendingReverse ==>
              var c := clip.value;
              && View(r.state, c) == ClipView(true, None, false)
              && r.state.powerOn == (s.powerOn || c == Power)
              && (NotifyPower(true) in r.effects <==> c == Power)
              && (NotifyLoaded in r.effects <==> c == Button)
              && RefreshLeds in r.effects
              && (RefreshTapeLight in r.effects <==> c == Power)
              && (RefreshRedZone in r.effects <==> c == Power)
              && forall e :: e in r.effects ==> e.NotifyPower? || e.NotifyLoaded? || e.RefreshLeds? || e.RefreshTapeLight? || e.RefreshRedZone?
    ensures clip.Some? && IsDir(s, clip.value, Reverse) ==>
              var c := clip.value;
              && View(r.state, c) == ClipView(false, None, c in s.pendingReverse)
              && r.state.powerOn == (s.powerOn && c != Power)
              && (NotifyPower(false) in r.effects <==> c == Power)
              && RefreshLeds in r.effects && RefreshTapeLight in r.effects
              && (RefreshRedZone in r.effects <==> c == Power)
              && forall e :: e in r.effects ==> e.NotifyPower? || e.RefreshLeds? || e.RefreshTapeLight? || e.RefreshRedZone?
  {
    match clip
    case None => Step(s, [])
    case Some(c) =>
      if c !in s.playing then Step(s, [])
      else if s.playing[c] == Forward then
        var stopped := s.playing - {c};
        if c in s.pendingReverse then
          Step(s.(playing := stopped[c := Reverse], pendingReverse := s.pendingReverse - {c}), [StartReverse(c)])
        else
          Step(s.(playing := stopped, pressed := s.pressed + {c}, powerOn := s.powerOn || c == Power),
               ForwardDone(c))
      else
        Step(s.(playing := s.playing - {c}, pressed := s.pressed - {c}, powerOn := s.powerOn && c != Power),
             ReverseDone(c))
  }

  /** Effects of a forward run of `c` that ends with no reverse queued: the power clip's "on"
      notice, the button's "loaded" notice, the handler's LED refresh and, for the power clip,
      the refresh the component re-runs whenever its power state changes. */
  function ForwardDone(c: Clip): (r: seq<Effect>)
    ensures NotifyPower(true) in r <==> c == Power
    ensures NotifyLoaded in r <==> c == Button
    ensures RefreshLeds in r
    ensures RefreshTapeLight in r <==> c == Power
    ensures RefreshRedZone in r <==> c == Power
    ensures forall e :: e in r ==> e.NotifyPower? || e.NotifyLoaded? || e.RefreshLeds? || e.RefreshTapeLight? || e.RefreshRedZone?
  {
    if c == Power then [NotifyPower(true), RefreshLeds] + PowerEffect
    else if c == Button then [NotifyLoaded, RefreshLeds]
    else [RefreshLeds]
  }

  /** Effects of a reverse run of `c` that ends: the power clip's "off" notice, the handler's
      LED and tape-light refresh and, for the power clip, the power-change refresh. */
  function ReverseDone(c: Clip): (r: seq<Effect>)
    ensures NotifyPower(false) in r <==> c == Power
    ensures RefreshLeds in r && RefreshTapeLight in r
    ensures RefreshRedZone in r <==> c == Power
    ensures forall e :: e in r ==> e.NotifyPower? || e.RefreshLeds? || e.RefreshTapeLight? || e.RefreshRedZone?
  {
    if c == Power then [NotifyPower(false), RefreshLeds, RefreshTapeLight] + PowerEffect
    else [RefreshLeds, RefreshTapeLight]
  }

  // ----- The cassette load/eject sequence (`playSequence`) -----

  predicate AllActions(actions: set<Clip>) {
    Button in actions && Tray in actions && Tape in actions
  }

  predicate AnyInGroup(s: State, d: Dir) {
    IsDir(s, Button, d) || IsDir(s, Tray, d) || IsDir(s, Tape, d)
  }

  predicate AnyPressed(s: State) {
    Button in s.pressed || Tray in s.pressed || Tape in s.pressed
  }

  function Load(s: State, actions: set<Clip>): (r: Step)
    ensures !AllActions(actions) || AnyInGroup(s, Reverse) ==> r == Step(s, [])
    ensures AllActions(actions) && !AnyInGroup(s, Reverse) && !AnyInGroup(s, Forward) && !AnyPressed(s) ==>
              && OnlyTouches(s, r.state, Button)
              && View(r.state, Button) == View(s, Button).(dir := Some(Forward))
              && r.effects == [StartForward(Button), Schedule(LoadStageDelay, LoadStage)]
    ensures AllActions(actions) && !AnyInGroup(s, Reverse) && AnyInGroup(s, Forward) ==>
              && r.state.pendingReverse == s.pendingReverse + LoadGroup
              && r.state.pressed == s.pressed && r.state.playing == s.playing && r.state.powerOn == s.powerOn
              && r.effects == []
    ensures AllActions(actions) && !AnyInGroup(s, Reverse) && !AnyInGroup(s, Forward) && AnyPressed(s) ==>
              && r.state == s
              && r.effects == [Schedule(ButtonEjectDelay, TapeUnloadNotice)] + EjectSchedule
    ensures Quiet(r.effects)
  {
    if !AllActions(actions) then Step(s, [])
    else if AnyInGroup(s, Reverse) then Step(s, [])
    else if !AnyPressed(s) && !AnyInGroup(s, Forward) then
      Step(s.(playing := s.playing[Button := Forward]), [StartForward(Button), Schedule(LoadStageDelay, LoadStage)])
    else if AnyInGroup(s, Forward) then
      Step(s.(pendingReverse := s.pendingReverse + LoadGroup), [])
    else
      Step(s, [Schedule(ButtonEjectDelay, TapeUnloadNotice)] + EjectSchedule)
  }

  /** A deferred callback runs. */
  function OnTimer(s: State, ev: Deferred): (r: Step)
    ensures ev == LoadStage ==>
              && SameOutside(s, r.state, {Tray, Tape}) && r.state.powerOn == s.powerOn
              && IsDir(r.state, Tray, Forward) && IsDir(r.state, Tape, Forward)
              && View(r.state, Tray).pressed == View(s, Tray).pressed && View(r.state, Tape).pressed == View(s, Tape).pressed
              && View(r.state, Tray).pending == View(s, Tray).pending && View(r.state, Tape).pending == View(s, Tape).pending
              && r.effects == [StartForward(Tray), StartForward(Tape)]
    ensures ev == TapeUnloadNotice ==> r == Step(s, [NotifyTapeUnload])
    ensures ev.DeferredReverse? ==>
              && OnlyTouches(s, r.state, ev.clip)
              && View(r.state, ev.clip) == View(s, ev.clip).(dir := Some(Reverse))
              && r.effects == [StartReverse(ev.clip)]
  {
    match ev
    case LoadStage =>
      Step(s.(playing := s.playing[Tray := Forward][Tape := Forward]), [StartForward(Tray), StartForward(Tape)])
    case TapeUnloadNotice => Step(s, [NotifyTapeUnload])
    case DeferredReverse(c) => Step(s.(playing := s.playing[c := Reverse]), [StartReverse(c)])
  }

  // ----- Forced eject (`unloadCassette`) -----

  function Unload(s: State, actions: set<Clip>): (r: Step)
    ensures |r.effects| > 0 && r.effects[0] == NotifyTapeUnload
    ensures !AllActions(actions) ==> r == Step(s, [NotifyTapeUnload])
    ensures AllActions(actions) ==>
              && SameOutside(s, r.state, LoadGroup) && r.state.powerOn == s.powerOn
              && (forall g :: g in LoadGroup ==> View(r.state, g) == IdleView)
              && r.effects == [NotifyTapeUnload] + EjectSchedule
  {
    if !AllActions(actions) then Step(s, [NotifyTapeUnload])
    else
      Step(s.(playing := s.playing - LoadGroup, pressed := s.pressed - LoadGroup,
              pendingReverse := s.pendingReverse - LoadGroup),
           [NotifyTapeUnload] + EjectSchedule)
  }

  // ----- Dedicated entry points -----

  /** `ensurePowerOn`: while the power is off, the toggle of the object name `btn_POWER`, which
      starts the power clip's press run from rest; the flag itself changes only when that run
      finishes. */
  function EnsurePowerOn(s: State, actions: set<Clip>): (r: Step)
    ensures r.state.powerOn == s.powerOn && OnlyTouches(s, r.state, Power)
    ensures s.powerOn ==> r == Step(s, [])
    ensures !s.powerOn ==> r == Toggle(s, actions, "btn_POWER")
    ensures !s.powerOn && Power in actions && View(s, Power) == IdleView ==>
              && View(r.state, Power) == ClipView(true, Some(Forward), false)
              && r.effects == [StartForward(Power), RefreshLeds]
  {
    if s.powerOn then Step(s, [])
    else
      KnownNames.PowerButtonResolves();
      ToggleClip(s, actions, Power)
  }

  /** The object names `togglePlay` and `toggleStereoButton` toggle resolve to the play and
      stereo clips, so toggling those clips directly is the component's toggle of those names. */
  lemma EntryPointsResolve(s: State, actions: set<Clip>)
    ensures ToggleClip(s, actions, Play) == Toggle(s, actions, "btn_PLAY")
    ensures ToggleClip(s, actions, Stereo) == Toggle(s, actions, "btn_STEREO")
  {
    KnownNames.PlayButtonResolves();
    KnownNames.StereoButtonResolves();
  }

  /** `resetPlayButton`: release the play button. */
  function ResetPlay(s: State, actions: set<Clip>): (r: Step)
    ensures OnlyTouches(s, r.state, Play)
    ensures Play !in actions || IsDir(s, Play, Reverse) ==> r == Step(s, [])
    ensures Play in actions && IsDir(s, Play, Forward) ==>
              View(r.state, Play) == View(s, Play).(pending := true) && r.effects == []
    ensures Play in actions && Play !in s.playing && Play in s.pressed ==>
              View(r.state, Play) == View(s, Play).(pressed := false, dir := Some(Reverse))
              && r.effects == [StartReverse(Play), RefreshLeds]
    ensures Play !in s.playing && Play !in s.pressed ==> r == Step(s, [])
    ensures Quiet(r.effects)
  {
    if Play !in actions then Step(s, [])
    else if IsDir(s, Play, Reverse) then Step(s, [])
    else if IsDir(s, Play, Forward) then Step(s.(pendingReverse := s.pendingReverse + {Play}), [])
    else if Play in s.pressed then
      Step(s.(pressed := s.pressed - {Play}, playing := s.playing[Play := Reverse]), [StartReverse(Play), RefreshLeds])
    else Step(s, [])
  }

  /** `resetStereoButton`: release the stereo button; unlike `ResetPlay` it leaves `pressed`
      to the reverse run's completion. */
  function ResetStereo(s: State, actions: set<Clip>): (r: Step)
    ensures OnlyTouches(s, r.state, Stereo)
    ensures Stereo !in actions || IsDir(s, Stereo, Reverse) ==> r == Step(s, [])
    ensures Stereo in actions && IsDir(s, Stereo, Forward) ==>
              View(r.state, Stereo) == View(s, Stereo).(pending := true) && r.effects == []
    ensures Stereo in actions && Stereo !in s.playing && Stereo in s.pressed ==>
              View(r.state, Stereo) == View(s, Stereo).(dir := Some(Reverse))
              && r.effects == [StartReverse(Stereo)]
    ensures Stereo !in s.playing && Stereo !in s.pressed ==> r == Step(s, [])
    ensures Quiet(r.effects)
  {
    if Stereo !in actions then Step(s, [])
    else if IsDir(s, Stereo, Reverse) then Step(s, [])
    else if IsDir(s, Stereo, Forward) then Step(s.(pendingReverse := s.pendingReverse + {Stereo}), [])
    else if Stereo in s.pressed then
      Step(s.(playing := s.playing[Stereo := Reverse]), [StartReverse(Stereo)])
    else Step(s, [])
  }

  /** `pressPlayButton`: press the play button, replacing a reverse run in flight. */
  function PressPlay(s: State, actions: set<Clip>): (r: Step)
    ensures OnlyTouches(s, r.state, Play)
    ensures Play !in actions || Play in s.pressed || IsDir(s, Play, Forward) ==> r == Step(s, [])
    ensures Play in actions && Play !in s.pressed && !IsDir(s, Play, Forward) ==>
              View(r.state, Play) == View(s, Play).(pressed := true, dir := Some(Forward))
              && r.effects == [StartForward(Play), RefreshLeds]
  {
    if Play !in actions then Step(s, [])
    else if Play in s.pressed || IsDir(s, Play, Forward) then Step(s, [])
    else
      Step(s.(playing := (s.playing - {Play})[Play := Forward], pressed := s.pressed + {Play}),
           [StartForward(Play), RefreshLeds])
  }

  /** The volume-knob click: the generic toggle on the volume clip without its pending branch. */
  function VolumeClick(s: State, actions: set<Clip>): (r: Step)
    ensures OnlyTouches(s, r.state, Volume)
    ensures View(r.state, Volume).pending == View(s, Volume).pending
    ensures Volume in actions && Volume !in s.pressed && Volume !in s.playing ==>
              View(r.state, Volume).pressed && IsDir(r.state, Volume, Forward)
              && r.effects == [StartForward(Volume), RefreshLeds]
    ensures Volume in actions && Volume in s.pressed && Volume !in s.playing ==>
              View(r.state, Volume).pressed && IsDir(r.state, Volume, Reverse)
              && r.effects == [StartReverse(Volume)]
    ensures Volume !in actions || Volume in s.playing ==> r == Step(s, [])
    ensures Quiet(r.effects)
  {
    if Volume !in actions then Step(s, [])
    else if Volume !in s.pressed && Volume !in s.playing then
      Step(s.(playing := s.playing[Volume := Forward], pressed := s.pressed + {Volume}), [StartForward(Volume), RefreshLeds])
    else if Volume in s.pressed && Volume !in s.playing then
      Step(s.(playing := s.playing[Volume := Reverse]), [StartReverse(Volume)])
    else Step(s, [])
  }

  // ----- The scene's click handler -----

  /** Run `second` after `first`, concatenating their effects. */
  function Then(first: Step, second: State -> Step): (r: Step)
    ensures r.state == second(first.state).state
    ensures r.effects == first.effects + second(first.state).effects
    ensures Quiet(first.effects) && Quiet(second(first.state).effects) ==> Quiet(r.effects)
  {
    var next := second(first.state);
    Step(next.state, first.effects + next.effects)
  }

  /** The clips the stereo click releases after its toggle. */
  const Released: set<Clip> := {Play, Stereo}

  /** `t` agrees with `s` on every clip outside `extra` other than the clip the lookup resolves
      `name` to. */
  predicate ChangesOnlyResolved(s: State, t: State, name: string, extra: set<Clip>) {
    forall d :: d !in extra && FindClip(name) != Some(d) ==> View(t, d) == View(s, d)
  }

  /** A click on the scene object called `name` (the empty string when the object has no name).
      The exact name `cassete` selects a song and changes nothing. Otherwise, by substring: a
      `Volume_knob` changes only the volume clip; a `btn_CASSETTE` only the load group; a
      `btn_PLAY` announces the click and changes only the clip the name resolves to; a
      `btn_STEREO` announces the click and changes only that clip and the play and stereo
      clips; any other name changes only the clip it resolves to. No click changes the power
      flag or emits a power notice. */
  function Click(s: State, actions: set<Clip>, name: string): (r: Step)
    ensures r.state.powerOn == s.powerOn && Quiet(r.effects)
    ensures name == "cassete" ==> r == Step(s, [NotifySelectSong])
    ensures name != "cassete" && Contains(name, "Volume_knob") ==> OnlyTouches(s, r.state, Volume)
    ensures name != "cassete" && !Contains(name, "Volume_knob") && Contains(name, "btn_CASSETTE") ==>
              SameOutside(s, r.state, LoadGroup)
    ensures name != "cassete" && !Contains(name, "Volume_knob") && !Contains(name, "btn_CASSETTE")
            && Contains(name, "btn_PLAY") ==>
              && |r.effects| > 0 && r.effects[0] == NotifyPlayClick
              && ChangesOnlyResolved(s, r.state, name, {})
    ensures name != "cassete" && !Contains(name, "Volume_knob") && !Contains(name, "btn_CASSETTE")
            && !Contains(name, "btn_PLAY") && Contains(name, "btn_STEREO") ==>
              && |r.effects| > 0 && r.effects[0] == NotifyStereoToggle
              && ChangesOnlyResolved(s, r.state, name, Released)
    ensures name != "cassete" && !Contains(name, "Volume_knob") && !Contains(name, "btn_CASSETTE")
            && !Contains(name, "btn_PLAY") && !Contains(name, "btn_STEREO") ==>
              ChangesOnlyResolved(s, r.state, name, {})
  {
    if name == "cassete" then Step(s, [NotifySelectSong])
    else if Contains(name, "Volume_knob") then VolumeClick(s, actions)
    else if Contains(name, "btn_CASSETTE") then Load(s, actions)
    else if Contains(name, "btn_PLAY") then
      Then(Step(s, [NotifyPlayClick]), t => Toggle(t, actions, name))
    else if Contains(name, "btn_STEREO") then
      var t := Then(Step(s, [NotifyStereoToggle]), t => Toggle(t, actions, name));
      var p := Then(t, t => ResetPlay(t, actions));
      Then(p, t => ResetStereo(t, actions))
    else
      Toggle(s, actions, name)
  }

  // ----- Every input the tracker reacts to -----

  datatype Input =
    | PowerOnCmd                    // `powerOn`
    | LoadCmd                       // `loadCassette`
    | TogglePlayCmd                 // `togglePlay`
    | UnloadCmd                     // `unloadCassette`
    | ResetStereoCmd                // `resetStereoButton`
    | ToggleStereoCmd               // `toggleStereoButton`
    | ResetPlayCmd                  // `resetPlayButton`
    | PressPlayCmd                  // `pressPlayButton`
    | ClickOn(name: string)         // a click on a scene object
    | ClipFinished(clip: Option<Clip>) // the mixer's "finished" event
    | TimerFired(event: Deferred)   // a scheduled callback runs

  function Dispatch(s: State, actions: set<Clip>, input: Input): Step {
    match input
    case PowerOnCmd => EnsurePowerOn(s, actions)
    case LoadCmd => Load(s, actions)
    case TogglePlayCmd => ToggleClip(s, actions, Play)
    case UnloadCmd => Unload(s, actions)
    case ResetStereoCmd => ResetStereo(s, actions)
    case ToggleStereoCmd => ToggleClip(s, actions, Stereo)
    case ResetPlayCmd => ResetPlay(s, actions)
    case PressPlayCmd => PressPlay(s, actions)
    case ClickOn(name) => Click(s, actions, name)
    case ClipFinished(clip) => Finish(s, clip)
    case TimerFired(ev) => OnTimer(s, ev)
  }
}

=== FILE: tracker_props.dfy ===
/**
 Properties of the tracker that relate several transitions: the power-flag
 invariant and its notifications, the press/release round trips of the
 generic toggle and of the play button's entry points, the double-click
 behaviour of the generic toggle, and the volume knob's variant of it.
 */
module TrackerProperties {

  import opened Wrappers
  import opened Clips
  import opened Text
  import opened Lookup
  import opened Tracker

  // ----- The generic toggle -----

  /** A second toggle of a clip the first toggle started changes nothing: the clip is already
      marked pressed, so no reverse is queued behind the forward run. */
  lemma SecondToggleIsIgnored(s: State, actions: set<Clip>, c: Clip)
    requires c in actions && c !in s.pressed && c !in s.playing
    ensures var t := ToggleClip(s, actions, c).state;
            ToggleClip(t, actions, c) == Step(t, [])
  {
  }

  /** When no clip matches the object name, the toggle changes nothing and emits nothing. */
  lemma ToggleWithoutMatch(s: State, actions: set<Clip>, objName: string)
    requires forall c :: !FirstMatch(objName, c)
    ensures Toggle(s, actions, objName) == Step(s, [])
  {
    if FindClip(objName).Some? {
      FindClipIsFirstMatch(objName, FindClip(objName).value);
    }
  }

  /** When `c` is the first clip in table order whose name matches, the toggle is the toggle of
      `c`, and it changes no other clip and not the power flag. */
  lemma ToggleOfFirstMatch(s: State, actions: set<Clip>, objName: string, c: Clip)
    requires FirstMatch(objName, c)
    ensures Toggle(s, actions, objName) == ToggleClip(s, actions, c)
    ensures OnlyTouches(s, Toggle(s, actions, objName).state, c)
  {
    FindClipIsFirstMatch(objName, c);
  }

  /** A clip that is not the first match keeps its view through the toggle. */
  lemma ToggleLeavesUnmatched(s: State, actions: set<Clip>, objName: string, d: Clip)
    requires !FirstMatch(objName, d)
    ensures View(Toggle(s, actions, objName).state, d) == View(s, d)
  {
    if FindClip(objName) == Some(d) {
      FindClipIsFirstMatch(objName, d);
    }
  }

  /** The power flag is on exactly while the power clip rests pressed or runs in reverse;
      a running power clip is always marked pressed; it never queues a reverse. */
  ghost predicate PowerInv(s: State) {
    && (s.powerOn <==> (Power in s.pressed && !IsDir(s, Power, Forward)))
    && (Power in s.playing ==> Power in s.pressed)
    && Power !in s.pendingReverse
  }

  lemma InitialPowerInv()
    ensures PowerInv(Initial) && !Initial.powerOn
  {
  }

  /** Press, let the forward run finish, press again, let the reverse run finish: every clip
      returns to the state it started from, the power flag included. */
  lemma ToggleRoundTrip(s: State, actions: set<Clip>, c: Clip)
    requires PowerInv(s)
    requires c in actions && View(s, c) == IdleView
    ensures var s1 := ToggleClip(s, actions, c).state;
            var s2 := Finish(s1, Some(c)).state;
            var s3 := ToggleClip(s2, actions, c).state;
            var s4 := Finish(s3, Some(c)).state;
            && View(s2, c) == ClipView(true, None, false)
            && s2.powerOn == (s.powerOn || c == Power)
            && s4 == s
  {
    var s1 := ToggleClip(s, actions, c).state;
    var s2 := Finish(s1, Some(c)).state;
    var s3 := ToggleClip(s2, actions, c).state;
    var s4 := Finish(s3, Some(c)).state;
    assert c == Power ==> !s.powerOn;
    forall d ensures View(s4, d) == View(s, d) {
      if d != c {
        assert View(s1, d) == View(s, d);
        assert View(s2, d) == View(s1, d);
        assert View(s3, d) == View(s2, d);
      }
    }
    ViewsDetermineState(s4, s);
  }

  /** `pressPlayButton`, the press run's finish, `resetPlayButton`, the release run's finish:
      the play button is pressed after the first finish and everything is back where it
      started after the second. */
  lemma PlayPressRoundTrip(s: State, actions: set<Clip>)
    requires Play in actions && View(s, Play) == IdleView
    ensures var s1 := PressPlay(s, actions).state;
            var s2 := Finish(s1, Some(Play)).state;
            var s3 := ResetPlay(s2, actions).state;
            var s4 := Finish(s3, Some(Play)).state;
            && View(s2, Play) == ClipView(true, None, false)
            && View(s3, Play) == ClipView(false, Some(Reverse), false)
            && s4 == s
  {
    var s1 := PressPlay(s, actions).state;
    var s2 := Finish(s1, Some(Play)).state;
    var s3 := ResetPlay(s2, actions).state;
    var s4 := Finish(s3, Some(Play)).state;
    forall d ensures View(s4, d) == View(s, d) {
      if d != Play {
        assert View(s1, d) == View(s, d);
        assert View(s2, d) == View(s1, d);
        assert View(s3, d) == View(s2, d);
      }
    }
    ViewsDetermineState(s4, s);
  }

  // ----- The power flag -----

  /** The `onPowerChange` arguments among `effects`, in order. */
  function PowerNotices(effects: seq<Effect>): (r: seq<bool>)
    ensures |r| <= |effects|
    ensures forall b :: b in r <==> NotifyPower(b) in effects
  {
    if |effects| == 0 then []
    else
      (if effects[0].NotifyPower? then [effects[0].on] else []) + PowerNotices(effects[1..])
  }

  lemma {:induction false} PowerNoticesAppend(a: seq<Effect>, b: seq<Effect>)
    ensures PowerNotices(a + b) == PowerNotices(a) + PowerNotices(b)
  {
    if |a| == 0 {
      assert a + b == b;
    } else {
      assert (a + b)[1..] == a[1..] + b;
      PowerNoticesAppend(a[1..], b);
    }
  }

  lemma {:induction false} QuietHasNoNotices(effects: seq<Effect>)
    requires Quiet(effects)
    ensures PowerNotices(effects) == []
  {
    if |effects| > 0 {
      assert effects[0] in effects;
      assert forall e :: e in effects[1..] ==> e in effects;
      QuietHasNoNotices(effects[1..]);
    }
  }

  /** A notice followed by quiet effects: the one notice is all `onPowerChange` sees. */
  lemma NoticeThenQuiet(on: bool, tail: seq<Effect>)
    requires Quiet(tail)
    ensures PowerNotices([NotifyPower(on)] + tail) == [on]
  {
    assert ([NotifyPower(on)] + tail)[1..] == tail;
    QuietHasNoNotices(tail);
  }

  /** The toggle and the button entry points never touch the power clip's state unless they
      toggle it, never change the power flag and never notify. */
  lemma ClickKeepsPowerInv(s: State, actions: set<Clip>, name: string)
    requires PowerInv(s)
    ensures var r := Click(s, actions, name);
            PowerInv(r.state) && r.state.powerOn == s.powerOn && Quiet(r.effects)
  {
    var r := Click(s, actions, name);
    if name == "cassete" {
    } else if Contains(name, "Volume_knob") {
      assert View(r.state, Power) == View(s, Power);
    } else if Contains(name, "btn_CASSETTE") {
      assert View(r.state, Power) == View(s, Power);
    } else if Contains(name, "btn_PLAY") {
      ToggleKeepsPowerInv(s, actions, name);
    } else if Contains(name, "btn_STEREO") {
      StereoChainKeepsPowerInv(s, actions, name);
    } else {
      ToggleKeepsPowerInv(s, actions, name);
    }
  }

  /** The stereo click's chain: toggle, then release the play button, then the stereo button. */
  lemma StereoChainKeepsPowerInv(s: State, actions: set<Clip>, name: string)
    requires PowerInv(s)
    ensures var t := Toggle(s, actions, name);
            var p := ResetPlay(t.state, actions);
            var q := ResetStereo(p.state, actions);
            && PowerInv(q.state) && q.state.powerOn == s.powerOn
            && Quiet([NotifyStereoToggle] + t.effects + p.effects + q.effects)
  {
    var t := Toggle(s, actions, name);
    ToggleKeepsPowerInv(s, actions, name);
    ReleasesKeepPowerInv(t.state, actions);
    var p := ResetPlay(t.state, actions);
    var q := ResetStereo(p.state, actions);
    QuietAppend([NotifyStereoToggle], t.effects);
    QuietAppend([NotifyStereoToggle] + t.effects, p.effects + q.effects);
    assert [NotifyStereoToggle] + t.effects + (p.effects + q.effects) == [NotifyStereoToggle] + t.effects + p.effects + q.effects;
  }

  /** Releasing the play button and then the stereo button keeps the invariant and is quiet. */
  lemma ReleasesKeepPowerInv(s: State, actions: set<Clip>)
    requires PowerInv(s)
    ensures var p := ResetPlay(s, actions);
            var q := ResetStereo(p.state, actions);
            && PowerInv(q.state) && q.state.powerOn == s.powerOn
            && Quiet(p.effects + q.effects)
  {
    var p := ResetPlay(s, actions);
    var q := ResetStereo(p.state, actions);
    assert View(p.state, Power) == View(s, Power);
    assert View(q.state, Power) == View(p.state, Power);
    assert Quiet(p.effects) && Quiet(q.effects);
    QuietAppend(p.effects, q.effects);
  }

  lemma QuietAppend(a: seq<Effect>, b: seq<Effect>)
    requires Quiet(a) && Quiet(b)
    ensures Quiet(a + b)
  {
  }

  lemma ToggleClipKeepsPowerInv(s: State, actions: set<Clip>, c: Clip)
    requires PowerInv(s)
    ensures var r := ToggleClip(s, actions, c);
            PowerInv(r.state) && r.state.powerOn == s.powerOn && Quiet(r.effects)
  {
    var r := ToggleClip(s, actions, c);
    if c != Power {
      assert View(r.state, Power) == View(s, Power);
    }
  }

  lemma ToggleKeepsPowerInv(s: State, actions: set<Clip>, name: string)
    requires PowerInv(s)
    ensures var r := Toggle(s, actions, name);
            PowerInv(r.state) && r.state.powerOn == s.powerOn && Quiet(r.effects)
  {
    match FindClip(name)
    case None =>
    case Some(c) => ToggleClipKeepsPowerInv(s, actions, c);
  }

  /** Every input keeps the power invariant. */
  lemma PowerInvPreserved(s: State, actions: set<Clip>, input: Input)
    requires PowerInv(s)
    ensures PowerInv(Dispatch(s, actions, input).state)
  {
    PowerNoticeExactlyOnce(s, actions, input);
  }

  /** Under the invariant, an input emits an `onPowerChange` exactly when it flips the power
      flag, exactly once, carrying the new value; and only the power clip's finish event flips it. */
  lemma PowerNoticeExactlyOnce(s: State, actions: set<Clip>, input: Input)
    requires PowerInv(s)
    ensures var r := Dispatch(s, actions, input);
            && PowerInv(r.state)
            && PowerNotices(r.effects) == (if r.state.powerOn != s.powerOn then [r.state.powerOn] else [])
            && (r.state.powerOn != s.powerOn ==> input == ClipFinished(Some(Power)))
  {
    var r := Dispatch(s, actions, input);
    match input
    case PowerOnCmd =>
      ToggleClipKeepsPowerInv(s, actions, Power);
      QuietHasNoNotices(r.effects);
    case LoadCmd =>
      assert View(r.state, Power) == View(s, Power);
      QuietHasNoNotices(r.effects);
    case TogglePlayCmd =>
      ToggleClipKeepsPowerInv(s, actions, Play);
      QuietHasNoNotices(r.effects);
    case UnloadCmd =>
      assert View(r.state, Power) == View(s, Power);
      QuietHasNoNotices(r.effects);
    case ResetStereoCmd =>
      assert View(r.state, Power) == View(s, Power);
      QuietHasNoNotices(r.effects);
    case ToggleStereoCmd =>
      ToggleClipKeepsPowerInv(s, actions, Stereo);
      QuietHasNoNotices(r.effects);
    case ResetPlayCmd =>
      assert View(r.state, Power) == View(s, Power);
      QuietHasNoNotices(r.effects);
    case PressPlayCmd =>
      assert View(r.state, Power) == View(s, Power);
      QuietHasNoNotices(r.effects);
    case ClickOn(name) =>
      ClickKeepsPowerInv(s, actions, name);
      QuietHasNoNotices(r.effects);
    case TimerFired(ev) =>
      assert View(r.state, Power) == View(s, Power);
      QuietHasNoNotices(r.effects);
    case ClipFinished(clip) =>
      FinishNotices(s, clip);
  }

  lemma FinishNotices(s: State, clip: Option<Clip>)
    requires PowerInv(s)
    ensures var r := Finish(s, clip);
            && PowerInv(r.state)
            && PowerNotices(r.effects) == (if r.state.powerOn != s.powerOn then [r.state.powerOn] else [])
            && (r.state.powerOn != s.powerOn ==> clip == Some(Power))
  {
    if clip.Some? && clip.value in s.playing {
      if clip.value != Power {
        OtherFinishIsQuiet(s, clip.value);
      } else {
        PowerFinishNotices(s);
      }
    }
  }

  /** The finish of a clip other than the power clip leaves the power clip and flag alone and
      emits no notice. */
  lemma OtherFinishIsQuiet(s: State, c: Clip)
    requires PowerInv(s) && c != Power
    ensures var r := Finish(s, Some(c));
            PowerInv(r.state) && r.state.powerOn == s.powerOn && PowerNotices(r.effects) == []
  {
    var r := Finish(s, Some(c));
    assert View(r.state, Power) == View(s, Power);
    QuietHasNoNotices(r.effects);
  }

  /** The power clip's finish flips the flag and emits the one notice carrying its new value. */
  lemma PowerFinishNotices(s: State)
    requires PowerInv(s) && Power in s.playing
    ensures var r := Finish(s, Some(Power));
            && PowerInv(r.state) && r.state.powerOn != s.powerOn
            && PowerNotices(r.effects) == [r.state.powerOn]
  {
    if s.playing[Power] == Forward {
      PowerForwardFinish(s);
    } else {
      assert Finish(s, Some(Power)).effects == [NotifyPower(false)] + ([RefreshLeds, RefreshTapeLight] + PowerEffect);
      NoticeThenQuiet(false, [RefreshLeds, RefreshTapeLight] + PowerEffect);
    }
  }

  /** On a powered-down model, `ensurePowerOn` leaves the power clip running forward with no
      reverse queued: it starts the clip from rest, or finds it already starting. */
  lemma PowerOnStarts(s: State, actions: set<Clip>)
    requires PowerInv(s) && !s.powerOn && Power in actions
    ensures var a := EnsurePowerOn(s, actions);
            && a.effects == (if Power in s.playing then [] else [StartForward(Power), RefreshLeds])
            && IsDir(a.state, Power, Forward) && Power !in a.state.pendingReverse
            && !a.state.powerOn && Quiet(a.effects)
  {
    assert EnsurePowerOn(s, actions) == ToggleClip(s, actions, Power);
  }

  /** `ensurePowerOn` on a powered-down model, then the power clip's forward finish: the power
      is on, and exactly one `onPowerChange(true)` was emitted over both steps. */
  lemma PowerOnScenario(s: State, actions: set<Clip>)
    requires PowerInv(s) && !s.powerOn && Power in actions
    ensures var a := EnsurePowerOn(s, actions);
            var b := Finish(a.state, Some(Power));
            && b.state.powerOn
            && PowerNotices(a.effects + b.effects) == [true]
  {
    PowerOnStarts(s, actions);
    StartThenFinish(EnsurePowerOn(s, actions));
  }

  /** A quiet step that leaves the power clip running forward, unqueued, followed by that run's
      finish: the power is on and the one notice over both steps is `onPowerChange(true)`. */
  lemma StartThenFinish(a: Step)
    requires Quiet(a.effects) && IsDir(a.state, Power, Forward) && Power !in a.state.pendingReverse
    ensures var b := Finish(a.state, Some(Power));
            b.state.powerOn && PowerNotices(a.effects + b.effects) == [true]
  {
    PowerForwardFinish(a.state);
    var b := Finish(a.state, Some(Power));
    PowerNoticesAppend(a.effects, b.effects);
    QuietHasNoNotices(a.effects);
  }


  /** The power clip's press run ending with no reverse queued turns the power on and emits the
      one notice `onPowerChange(true)`. */
  lemma PowerForwardFinish(t: State)
    requires IsDir(t, Power, Forward) && Power !in t.pendingReverse
    ensures Finish(t, Some(Power)).state.powerOn
    ensures PowerNotices(Finish(t, Some(Power)).effects) == [true]
  {
    assert Finish(t, Some(Power)).effects == [NotifyPower(true)] + ([RefreshLeds] + PowerEffect);
    NoticeThenQuiet(true, [RefreshLeds] + PowerEffect);
  }

  // ----- The volume knob -----

  /** The volume-knob click is the generic toggle on the volume clip, except that a click
      during an unpressed forward run is dropped where the toggle would queue a reverse. */
  lemma VolumeClickIsToggleWithoutQueue(s: State, actions: set<Clip>)
    ensures !(Volume !in s.pressed && IsDir(s, Volume, Forward)) ==>
              VolumeClick(s, actions) == ToggleClip(s, actions, Volume)
    ensures Volume in actions && Volume !in s.pressed && IsDir(s, Volume, Forward) ==>
              && VolumeClick(s, actions) == Step(s, [])
              && ToggleClip(s, actions, Volume).state.pendingReverse == s.pendingReverse + {Volume}
  {
  }
}

=== FILE: wrappers.dfy ===
/** The optional-value datatype used where the component returns `null`. */
module Wrappers {

  datatype Option<+T> = None | Some(value: T)
}
